=== FILE: README.md ===
# Form-urlencoded parsing, modelled in Dafny

This project models the `application/x-www-form-urlencoded` parser of the
utf8string samples. `FormParse.Parse` takes a byte span and a
query-string flag and returns a dictionary of keys to values. It comes in
two variants:

- **Baseline** (`Samples/BaselineFormParse/FormParse.cs`): keys and values
  are C# `string`s obtained by UTF-8 decoding, modelled as their text (a
  sequence of `char`). Keys compare ordinally.
  In query-string mode, `+` characters are replaced after decoding.
- **Experimental** (`Samples/ExperimentalFormParse/FormParse.cs`): keys and
  values are `Utf8String`s, modelled as the decoded bytes, copied unchanged
  (see "## Left out"). Keys compare
  `OrdinalIgnoreCase`. In query-string mode, `+` bytes are replaced.

Both variants are built from the same three layers. `PercentUnescape` and
the percent-decoding half of `MakeStringFrom` (lines 63-113) are identical
in the two files. The rest of each layer differs by variant:

1. **`PercentUnescape`** decodes one `%HH` escape (section 2.1 of RFC 3986),
   or returns -1.
2. **`MakeStringFrom`** percent-decodes one segment and turns it into the
   variant's string type.
   - A segment without `%` is used as it is.
   - Otherwise the segment is decoded into one scratch buffer rented from
     `ArrayPool<byte>`, and the buffer is reused across segments.
   - A failed escape leaves a literal `%`.
   - The baseline then decodes the bytes as UTF-8 (`GetString`, or
     `GetCharCount` and `GetChars` in `string.Create`) and replaces `+`
     characters. The experimental variant wraps the bytes in a `Utf8String`
     (a byte copy in `Utf8String.Create`) and replaces `+` bytes.
   - In query-string mode, every `+` then becomes a space.
3. **`Parse`** splits the input at `&`, then splits each piece at its first
   `=`, and stores key and value. A later duplicate key overwrites the value.
   The buffer is returned once at the end. The variants differ in the
   dictionary's comparer (the default one or `OrdinalIgnoreCase`) and the
   empty value (`string.Empty` or `Utf8String.Empty`).

Modules:

| file | module | what it holds |
|---|---|---|
| bytes.dfy | `Wrappers`, `Bytes` | `Option`; bytes and delimiters; span `IndexOf`; the `+` replacement loop |
| percent.dfy | `Percent` | `Nibble`, `PercentUnescape`, the reference decoder `Unescape`, an encoder `Escape` and the round trip |
| scratch.dfy | `Scratch` | the pool as an event log; the rent / grow / reuse policy; the escape loop into the buffer |
| dict.dfy | `Dict` | the dictionary, with key equivalence given by a canonical form (`canon`); last-write-wins |
| scanner.dfy | `Scanner` | splitting at `&` (`Chunks`) and at the first `=` (`SplitPair`) |
| formparse.dfy | `FormParse` | `Parse`, shared by both variants and parameterised by what a segment becomes and by the key comparer |
| experimental.dfy | `Experimental` | byte strings, byte-wise `+`, `OrdinalIgnoreCase`; serialize/parse round trips |
| baseline.dfy | `Baseline` | the text of C# strings, from a decoder parameter `dec`, char-wise `+`, ordinal keys |
| cases.dfy | `Cases` | the edge cases of percent-decoding and of the scanner, stated for all plain keys and values |

Modelling choices:

- **The scratch buffer** is an `Option<seq<byte>>`, the C# `ref byte[]`. Its
  length is its capacity.
- **The pool** is a log of `Rent(capacity)` and `Return(capacity)` events.
  - The capacity the pool hands out for a request is a parameter
    `grant: nat -> nat`, with `grant(n) >= n` (`IsPool`).
  - `Disciplined` states the buffer policy over a log:
    - a rent only happens when nothing is held;
    - a return gives back exactly the held buffer;
    - each rent is larger than the one before it.
  - `Scratch.SegmentTraffic` gives the exact events one segment causes.
    `FormParse.PieceTraffic` composes them for a piece: the key's events,
    then the value's, in the order of lines 165-166 of the baseline file.
    `FormParse.PiecesTraffic` folds that over the pieces in input order.
- **Keys** are equivalent when their canonical forms agree.
  - The baseline's ordinal comparer is the identity (`Baseline.Ordinal`).
  - `OrdinalIgnoreCase` is `Experimental.FoldCase`.
  - Storing under an equivalent key keeps the spelling stored first and
    replaces the value, as the .NET dictionary indexer does.
- **What `Parse` returns** is stated by `FormParse.ParseSpec`: the pieces,
  decoded, stored one after another from an empty dictionary.
- **Behaviour the code has and section 5.1 of the WHATWG URL Standard does
  not:**
  - `+` is replaced after percent-decoding, so `%2B` also becomes a space
    in query-string mode.
  - Empty pieces (`&&`) are stored as an empty key with an empty value.

## Model

| member | source | states |
|---|---|---|
| Bytes.IndexOf | Samples/BaselineFormParse/FormParse.cs:66 | the span search: -1 exactly when the byte is absent, otherwise a position holding it with no earlier occurrence |
| Bytes.ReplaceAll | Samples/ExperimentalFormParse/FormParse.cs:124-131 | the replacement loop keeps the length and turns every `from` into `to`, leaving every other element unchanged |
| Percent.Nibble | Samples/BaselineFormParse/FormParse.cs:23-39 | the three unsigned range tests give -1 exactly for a non-hex byte, and otherwise a value whose upper- or lower-case digit is that byte |
| Percent.PercentUnescape | Samples/BaselineFormParse/FormParse.cs:12-60 | result in -1..255; -1 exactly when fewer than three bytes or either following byte is not a hex digit; otherwise the two bytes spell the high and low nibble of the result |
| Percent.UnescapeByteRoundTrip | Samples/ExperimentalFormParse/FormParse.cs:23-59 | every byte written as `%HH`, with upper- or lower-case digits, decodes back to that byte |
| Percent.Unescape | Samples/BaselineFormParse/FormParse.cs:82-107 | the meaning of the escape loop over a whole segment; decoding never lengthens a segment |
| Percent.UnescapeNoPercent | Samples/BaselineFormParse/FormParse.cs:66-67 | a segment without `%` decodes to itself, so skipping the buffer is sound |
| Percent.UnescapeLiteralRun | Samples/BaselineFormParse/FormParse.cs:84-88 | the bytes before a `%` are copied verbatim |
| Percent.UnescapeEscape | Samples/BaselineFormParse/FormParse.cs:92-104 | decoding inverts percent-encoding of any byte string |
| Scratch.Acquire | Samples/BaselineFormParse/FormParse.cs:69-77 | the buffer is rented when none is held, returned and re-rented only when too small, and reused otherwise; a new buffer has the capacity the pool grants for the segment length, so at least that length; the log is disciplined |
| Scratch.EscapeStep | Samples/BaselineFormParse/FormParse.cs:92-104 | reading resumes three bytes on exactly when `PercentUnescape` accepts the escape, and one byte on otherwise; the byte emitted is the decoded value for a valid escape and a literal `%` for an invalid one, and is the first byte of the segment's decoding |
| Scratch.CopyThroughEscape | Samples/BaselineFormParse/FormParse.cs:84-104 | one turn of the escape loop writes the run before the `%` and then the escape's byte at the write offset, and what it writes followed by the decoding of the rest is the decoding from the read offset |
| Scratch.UnescapeInto | Samples/BaselineFormParse/FormParse.cs:79-112 | the do-while loop and the leftover copy write exactly the decoding of the segment into the buffer, and its length is at most the segment length |
| Scratch.DecodeSegment | Samples/BaselineFormParse/FormParse.cs:62-113 | the decoded bytes are the segment's decoding; the pool traffic and the capacity held afterwards are those of `SegmentTraffic`: none without `%`, otherwise a rent when nothing is held, a return and a rent when the held buffer is too short, none when it is long enough; the pool log is disciplined |
| Dict.Insert | Samples/BaselineFormParse/FormParse.cs:160 | the indexer store: keys stay distinct, the key then maps to the value, existing keys keep their spelling, and an entry is added exactly when the key was absent |
| Dict.InsertOther | Samples/BaselineFormParse/FormParse.cs:165-166 | storing under one key leaves every non-equivalent key's value as it was |
| Dict.BuildLookup | Samples/BaselineFormParse/FormParse.cs:151-189 | last write wins: the value of a key is that of the last pair with an equivalent key, and absent when there is none |
| Dict.BuildStoredKey | Samples/ExperimentalFormParse/FormParse.cs:164-165 | a key is present exactly when some pair has an equivalent key, and it is spelled as the first such pair spelled it |
| Scanner.Chunks | Samples/BaselineFormParse/FormParse.cs:151-175 | the pieces contain no `&`, and there are none exactly when the input is empty |
| Scanner.SplitPair | Samples/BaselineFormParse/FormParse.cs:156-166 | the key holds no `=`; there is a value exactly when the piece holds `=`, and then the piece is key, `=`, value |
| Scanner.ChunksJoin | Samples/BaselineFormParse/FormParse.cs:151-189 | scanning loses nothing but a trailing `&`: gluing the pieces back with `&` gives the input |
| Scanner.ChunksOfJoin | Samples/BaselineFormParse/FormParse.cs:151-170 | pieces without `&` whose last one is non-empty are recovered exactly from their join |
| Scanner.SplitPairOfJoin | Samples/BaselineFormParse/FormParse.cs:156 | splitting `key=value` at the first `=` recovers key and value when the key holds no `=` |
| FormParse.StorePiece | Samples/BaselineFormParse/FormParse.cs:156-166 | one piece stores its decoded entry; its pool traffic is the key segment's traffic followed by the value segment's, starting from what the key left held, so the key is decoded first; no `%` means no pool traffic |
| FormParse.StoreNext | Samples/BaselineFormParse/FormParse.cs:156-169 | one turn of the loop stores the piece before the `&`, appends its `PieceTraffic` to the pool log and moves past the `&`; the stored pieces, the dictionary, the pool log and the held buffer stay in step with each other, and the unscanned rest still ends as the input does |
| FormParse.StoreTerminatedPieces | Samples/BaselineFormParse/FormParse.cs:151-170 | the loop stores every `&`-terminated piece in order and leaves a remainder without `&`, empty only when the input is empty or ends with `&`; its pool events and the capacity held are the `PieceTraffic` of the stored pieces in order; a buffer is held at the end exactly when some stored piece holds `%` |
| FormParse.Parse | Samples/BaselineFormParse/FormParse.cs:143-199 | the dictionary is that of the decoded pieces stored in order; the pool log is exactly the traffic of the pieces in input order (`PiecesTraffic`) followed by one return of the buffer still held, so nothing is rented before a piece needs it; every rent is returned exactly once and nothing is returned that was not rented; there is pool traffic exactly when the input holds `%`; each rent is larger than the previous one |
| Experimental.MakeStringFrom | Samples/ExperimentalFormParse/FormParse.cs:62-140 | the result has the decoded length; in query-string mode every `+` byte becomes a space and every other byte is copied; in form mode it is the decoded bytes; the pool events and the capacity held afterwards are those of `SegmentTraffic`, as for `DecodeSegment`, so a long-enough buffer is reused without pool traffic; the log is disciplined |
| Experimental.Parse | Samples/ExperimentalFormParse/FormParse.cs:142-198 | `Parse` with byte strings and the case-folding comparer: the dictionary is `ParseSpec`'s; the pool log is the pieces' traffic in input order followed by one return of the buffer still held; it is balanced, empty exactly when the input has no `%`, with growing rents |
| Experimental.LookupIgnoresCase | Samples/ExperimentalFormParse/FormParse.cs:144 | a lookup ignoring case gives the last value among keys that match ignoring case, under the first spelling |
| Experimental.FormRoundTrip | Samples/ExperimentalFormParse/FormParse.cs:142-198 | in form mode, parsing the percent-encoded serialization of any pairs stores exactly those pairs in order, for any comparer |
| Experimental.QueryRoundTrip | Samples/ExperimentalFormParse/FormParse.cs:120-132 | in query-string mode, the same round trip holds for keys and values without `+` |
| Experimental.QueryModeEscapedPlus | Samples/ExperimentalFormParse/FormParse.cs:120-132 | an encoded `+` (`%2B`) comes out of query-string mode as a space |
| Baseline.MakeStringFrom | Samples/BaselineFormParse/FormParse.cs:62-141 | the result has the decoded text's length; in query-string mode every `+` character becomes a space; in form mode it is the decoded text; the pool events and the capacity held afterwards are those of `SegmentTraffic`, as for `DecodeSegment`, so a long-enough buffer is reused without pool traffic; the log is disciplined |
| Baseline.Parse | Samples/BaselineFormParse/FormParse.cs:143-199 | `Parse` with decoded strings and ordinal keys: the dictionary is `ParseSpec`'s; the pool log is the pieces' traffic in input order followed by one return of the buffer still held; it is balanced, empty exactly when the input has no `%`, with growing rents |
| Baseline.VariantsAgree | Samples/BaselineFormParse/FormParse.cs:115-139 | with a decoder that decodes each 7-bit byte on its own and never makes `+` from other bytes, as UTF-8 decoding does, the baseline's string for a segment is the decoding of the experimental variant's bytes |
| Baseline.PlusCommutesOn | Samples/BaselineFormParse/FormParse.cs:115-139 | under those two decoder facts, replacing `+` bytes before decoding gives the same string as replacing `+` characters after it |
| Baseline.LookupOrdinal | Samples/BaselineFormParse/FormParse.cs:145 | with ordinal keys, a lookup gives the value of the last pair with exactly that key |
| Cases.ValidEscape | Samples/BaselineFormParse/FormParse.cs:23-59 | `%41` decodes to `A` |
| Cases.TruncatedEscape | Samples/BaselineFormParse/FormParse.cs:16-19 | `%4` is too short to decode and is kept as it is |
| Cases.NonHexEscape | Samples/BaselineFormParse/FormParse.cs:36-39 | `%zz` is not an escape and is kept as it is |
| Cases.PlusHandling | Samples/ExperimentalFormParse/FormParse.cs:115-139 | `a+b` is `a b` in query-string mode and `a+b` in form mode |
| Cases.EscapedPlusInForm | Samples/ExperimentalFormParse/FormParse.cs:136-138 | `%2B` is a literal `+` in form mode |
| Cases.EmptyInput | Samples/BaselineFormParse/FormParse.cs:175 | an empty input stores nothing |
| Cases.LastWriteWins | Samples/BaselineFormParse/FormParse.cs:165-166 | `k=v1&k=v2` stores one entry with value `v2`, for any string type and any comparer |
| Cases.IgnoreCaseKeepsFirstSpelling | Samples/ExperimentalFormParse/FormParse.cs:144 | keys equal but for ASCII case, such as `A=1&a=2`, store one entry under the first spelling with the later value |
| Cases.OrdinalKeepsBoth | Samples/BaselineFormParse/FormParse.cs:145 | with ordinal keys, keys that decode differently, such as `A=1&a=2`, store two entries |
| Cases.IgnoreCaseExample | Samples/ExperimentalFormParse/FormParse.cs:144 | `A=1&a=2` with the case-ignoring comparer stores one entry, `A`, holding `2` |
| Cases.OrdinalExample | Samples/BaselineFormParse/FormParse.cs:145 | `A=1&a=2` with ordinal keys and a decoder that keeps ASCII stores `A` holding `1` and `a` holding `2` |
| Cases.TrailingAmpersand | Samples/BaselineFormParse/FormParse.cs:169-175 | `k=v&` stores the same as `k=v`: one entry, for any string type and any comparer |
| Cases.NoEqualsMeansEmptyValue | Samples/BaselineFormParse/FormParse.cs:177-181 | a piece without `=` stores its key with the variant's empty value, which is not a decoded segment |
| Cases.LaterEqualsStayInValue | Samples/BaselineFormParse/FormParse.cs:176-187 | only the first `=` splits; later ones stay in the value, for any string type and any comparer |
| Cases.EmptyPieceKept | Samples/ExperimentalFormParse/FormParse.cs:152-159 | `k1=v1&&k2=v2` stores three entries, the middle one an empty key with an empty value |

## Left out

- UTF-8 decoding (`Encoding.UTF8.GetString`, `GetCharCount`, `GetChars`) and the `Utf8String` constructor are not modelled as code.
  - The baseline takes the decoder as a parameter `dec`.
  - The facts used about it are stated as predicates:
    - `KeepsAscii`: 7-bit bytes decode to the same characters;
    - `AsciiSplits`: a 7-bit byte decodes on its own, whatever surrounds it;
    - `HighNotPlus`: bytes at or above 0x80 never decode to `+`.
  - `ReplacingDecoder` (7-bit bytes kept, every other byte U+FFFD) meets all three, so the premises are consistent.
- `ArrayPool<byte>.Shared` internals are left out.
  - The capacity handed out for a request is the parameter `grant`.
  - Rented buffers are modelled as zero-filled; the stale contents of a reused array are not, because they never reach the output.
- Unicode `OrdinalIgnoreCase` is modelled for ASCII letters only (`FoldCase`). Case pairs outside ASCII are not folded.
- Experimental.Finish: `new Utf8String` (line 138) and `Utf8String.Create` (line 120) are assumed to copy the bytes unchanged. Replacing ill-formed UTF-8 with U+FFFD is not modelled. `Experimental.MakeStringFrom`'s length claim and `Experimental.FormRoundTrip` and `QueryRoundTrip` rest on that assumption: a key of the single byte 0xFF stays `[0xFF]` in the model.
- The `fixed` statement and the closure in `string.Create` / `Utf8String.Create` are left out: they are a representation detail. The copy and replacement they perform are modelled.
- The `Debug.Assert` checks are left out as runtime checks.
  - `PercentUnescape`'s assert (line 14 of each file) becomes its precondition.
  - The assert at line 101 of each file, that a decoded value is below 256, is a proved postcondition of `PercentUnescape`.
  - The baseline's assert at line 123, that the character count matches, is part of what `dec` stands for.
- `FormParse.StorePiece` and `FormParse.Parse` compute each string with the variant's `finish` function applied to `Scratch.DecodeSegment`. They do not call the `MakeStringFrom` methods. Each `MakeStringFrom` is proved to return exactly that `finish` value.
- At line 112 the local `input` is re-pointed at the decoded prefix of the rented buffer. The model returns the decoded bytes as a value instead.
- The `Program.cs` benchmark harnesses, `ReadCountryCodesUrlEncoded` and `SplitIntoWords` are not part of this model: they are file I/O, timing, console output and library string splitting.
- Concurrency is not modelled: the parser is sequential and holds no shared state beyond the pool.

=== FILE: baseline.dfy ===
/** The baseline variant: keys and values stand for the text of the C#
    strings a UTF-8 decoder produces (sequences of `char`), '+' is replaced character by character after decoding in
    query-string mode, and keys are compared ordinally. The decoder itself is
    a parameter `dec`; the facts used about it are stated as predicates. */
module Baseline {
  import opened Wrappers
  import opened Bytes
  import opened Percent
  import opened Scratch
  import opened Scanner
  import opened FormParse
  import Dict
  import Experimental

  /** The string a decoded segment becomes: `dec` of its bytes, with every
      '+' character turned into a space in query-string mode. */
  function Finish(dec: seq<byte> -> string, decoded: seq<byte>, isQuery: bool): string {
    if isQuery then Substitute(dec(decoded), '+', ' ') else dec(decoded)
  }

  /** Ordinal comparison: a key is its own canonical form. */
  function Ordinal(s: string): string {
    s
  }

  /** Every byte is 7-bit ASCII. */
  predicate AsciiBytes(b: seq<byte>) {
    forall i :: 0 <= i < |b| ==> b[i] < 0x80
  }

  /** `t` holds the characters whose code points are the bytes of `b`. */
  predicate SameText(b: seq<byte>, t: string) {
    |t| == |b| && forall i :: 0 <= i < |b| ==> t[i] as int == b[i] as int
  }

  /** A decoder that turns 7-bit ASCII bytes into the same characters, as
      UTF-8 decoding does. */
  ghost predicate KeepsAscii(dec: seq<byte> -> string) {
    forall b :: AsciiBytes(b) ==> SameText(b, dec(b))
  }

  /** A decoder that decodes a 7-bit byte on its own, whatever surrounds
      it: UTF-8 has this property, because no byte of a multi-byte sequence
      is below 0x80. */
  ghost predicate AsciiSplits(dec: seq<byte> -> string) {
    forall a, b, c :: b < 0x80 ==> dec(a + [b] + c) == dec(a) + [b as int as char] + dec(c)
  }

  /** Every byte is at least 0x80. */
  predicate AllHigh(b: seq<byte>) {
    forall i :: 0 <= i < |b| ==> b[i] >= 0x80
  }

  /** A decoder that never produces '+' from bytes that are all outside
      7-bit ASCII: in UTF-8 such bytes decode to non-ASCII characters or to
      U+FFFD. */
  ghost predicate HighNotPlus(dec: seq<byte> -> string) {
    forall b :: AllHigh(b) ==> '+' !in dec(b)
  }

  /** A decoder that keeps 7-bit bytes apart and never makes '+' from the
      others commutes with the '+' replacement on every byte string. */
  lemma {:induction false} PlusCommutesOn(dec: seq<byte> -> string, b: seq<byte>)
    requires AsciiSplits(dec) && HighNotPlus(dec)
    ensures dec(Substitute(b, PLUS, SPACE)) == Substitute(dec(b), '+', ' ')
    decreases |b|
  {
    if i :| 0 <= i < |b| && b[i] < 0x80 {
      var a, x, c := b[..i], b[i], b[i + 1..];
      assert b == a + [x] + c;
      var x' := if x == PLUS then SPACE else x;
      SubstituteAround(a, x, c, PLUS, SPACE);
      var sa, sc := Substitute(a, PLUS, SPACE), Substitute(c, PLUS, SPACE);
      assert dec(Substitute(b, PLUS, SPACE)) == dec(sa) + [x' as int as char] + dec(sc);
      assert dec(sa) == Substitute(dec(a), '+', ' ') by { PlusCommutesOn(dec, a); }
      assert dec(sc) == Substitute(dec(c), '+', ' ') by { PlusCommutesOn(dec, c); }
      assert dec(b) == dec(a) + [x as int as char] + dec(c);
      SubstituteAround(dec(a), x as int as char, dec(c), '+', ' ');
    } else {
      assert AllHigh(b);
      assert Substitute(b, PLUS, SPACE) == b;
      assert '+' !in dec(b);
      assert Substitute(dec(b), '+', ' ') == dec(b);
    }
  }

  /** A decoder meeting every premise used here: 7-bit bytes become the same
      characters and every other byte becomes U+FFFD. */
  function ReplacingDecoder(b: seq<byte>): (t: string)
    ensures |t| == |b|
  {
    seq(|b|, i requires 0 <= i < |b| => if b[i] < 0x80 then b[i] as int as char else '\U{FFFD}')
  }

  lemma ReplacingDecoderQualifies()
    ensures AsciiSplits(ReplacingDecoder) && HighNotPlus(ReplacingDecoder) && KeepsAscii(ReplacingDecoder)
  {
    forall a, b, c | b < 0x80
      ensures ReplacingDecoder(a + [b] + c) == ReplacingDecoder(a) + [b as int as char] + ReplacingDecoder(c)
    {
      var s := a + [b] + c;
      var l, r := ReplacingDecoder(a), ReplacingDecoder(c);
      assert forall i :: 0 <= i < |a| ==> s[i] == a[i];
      assert forall i :: 0 <= i < |c| ==> s[|a| + 1 + i] == c[i];
    }
  }

  /** `MakeStringFrom`: percent-decode through the shared buffer, decode the
      bytes, then replace each '+' character by a space in query-string mode. */
  method MakeStringFrom(dec: seq<byte> -> string, input: seq<byte>, borrowed: Option<seq<byte>>, isQuery: bool,
                        grant: nat -> nat)
    returns (text: string, borrowed': Option<seq<byte>>, log: seq<PoolEvent>)
    requires IsPool(grant)
    ensures var chars := dec(Unescape(input));
      && |text| == |chars|
      && (isQuery ==> forall i :: 0 <= i < |text| ==> text[i] == if chars[i] == '+' then ' ' else chars[i])
      && (!isQuery ==> text == chars)
    ensures text == Finish(dec, Unescape(input), isQuery)
    ensures PERCENT !in input ==> borrowed' == borrowed && log == []
    ensures PERCENT in input ==> borrowed'.Some? && |borrowed'.value| >= |input|
    ensures Disciplined(CapacityOf(borrowed), log, CapacityOf(borrowed'))
    ensures (log, CapacityOf(borrowed')) == SegmentTraffic(input, CapacityOf(borrowed), grant)
  {
    var decoded;
    decoded, borrowed', log := DecodeSegment(input, borrowed, grant);
    if isQuery {
      text := ReplaceAll(dec(decoded), '+', ' ');
    } else {
      text := dec(decoded);  // form mode keeps '+' as it is
    }
  }

  /** `Parse` with the decoder's text and the default (ordinal) comparer. */
  method Parse(dec: seq<byte> -> string, input: seq<byte>, isQuery: bool, grant: nat -> nat)
    returns (d: Dict.Dict<string, string>, log: seq<PoolEvent>)
    requires IsPool(grant)
    ensures d == ParseSpec(input, isQuery, (b, q) => Finish(dec, b, q), Ordinal, "")
    ensures Replay(None, log) == Some(None)
    ensures log == [] <==> PERCENT !in input
    ensures StrictlyIncreasing(Rents(log))
    ensures var t := PiecesTraffic(Chunks(input), None, grant);
      log == t.0 + (if t.1.Some? then [Return(t.1.value)] else [])
  {
    d, log := FormParse.Parse(input, isQuery, (b, q) => Finish(dec, b, q), Ordinal, "", grant);
  }

  /** With a decoder that keeps 7-bit bytes apart and never makes '+' from
      the others, as UTF-8 decoding does, the two variants produce the same
      text from every segment: the baseline string is the decoding of the
      experimental one. */
  lemma VariantsAgree(dec: seq<byte> -> string, segment: seq<byte>, isQuery: bool)
    requires AsciiSplits(dec) && HighNotPlus(dec)
    ensures Finish(dec, Unescape(segment), isQuery) == dec(Experimental.Finish(Unescape(segment), isQuery))
  {
    if isQuery {
      PlusCommutesOn(dec, Unescape(segment));
    }
  }

  /** Ordinal keys: looking a key up gives the value of the last pair with
      exactly that key, case included. */
  lemma {:induction false} LookupOrdinal(dec: seq<byte> -> string, input: seq<byte>, isQuery: bool, k: string)
    ensures var pairs := DecodeChunks(Chunks(input), isQuery, (b, q) => Finish(dec, b, q), "");
      Dict.Lookup(ParseSpec(input, isQuery, (b, q) => Finish(dec, b, q), Ordinal, ""), k, Ordinal)
      == Dict.LastValue(pairs, k, Ordinal)
  {
    var pairs := DecodeChunks(Chunks(input), isQuery, (b, q) => Finish(dec, b, q), "");
    Dict.BuildLookup(pairs, k, Ordinal);
  }
}

=== FILE: bytes.dfy ===
/** Optional values: a span that may be absent, a dictionary lookup that may miss. */
module Wrappers {

  datatype Option<+T> = None | Some(value: T)
}

/** Bytes, the ASCII delimiters the form grammar uses, and the span searches
    (`IndexOf`) and in-place substitution the parser is built from. */
module Bytes {

  newtype byte = x: int | 0 <= x < 256

  const PERCENT: byte := 0x25    // '%'
  const AMPERSAND: byte := 0x26  // '&'
  const EQUALS: byte := 0x3D     // '='
  const PLUS: byte := 0x2B       // '+'
  const SPACE: byte := 0x20      // ' '

  /** True when every character of `s` is 7-bit ASCII. */
  predicate IsAscii(s: string) {
    forall i :: 0 <= i < |s| ==> s[i] as int < 128
  }

  /** The bytes of an ASCII string, one byte per character. */
  function Ascii(s: string): (r: seq<byte>)
    requires IsAscii(s)
    ensures |r| == |s|
    ensures forall i :: 0 <= i < |s| ==> r[i] as int == s[i] as int
  {
    seq(|s|, i requires 0 <= i < |s| => s[i] as int as byte)
  }

  /** First position of `x` in `s`, or -1 when `x` does not occur: the
      contract of a span's `IndexOf`. */
  function IndexOf<T(==)>(s: seq<T>, x: T): (r: int)
    ensures -1 <= r < |s|
    ensures r < 0 <==> x !in s
    ensures r >= 0 ==> s[r] == x && x !in s[..r]
  {
    if |s| == 0 then -1
    else if s[0] == x then 0
    else
      var i := IndexOf(s[1..], x);
      assert s[1..][..if i < 0 then 0 else i] == s[1..if i < 0 then 1 else i + 1];
      if i < 0 then -1 else i + 1
  }

  /** The first occurrence is the one with no earlier occurrence. */
  lemma IndexOfAt<T>(s: seq<T>, x: T, n: nat)
    requires n < |s| && s[n] == x && x !in s[..n]
    ensures IndexOf(s, x) == n
  {
  }

  /** An element of `s` lies before, at or after position `j`. */
  lemma InAround<T>(s: seq<T>, j: nat, x: T)
    requires j < |s|
    ensures x in s <==> x in s[..j] || x == s[j] || x in s[j + 1..]
  {
    assert s == s[..j] + [s[j]] + s[j + 1..];
  }

  /** `s` with every occurrence of `from` replaced by `to`. */
  function Substitute<T(==)>(s: seq<T>, from: T, to: T): seq<T> {
    seq(|s|, i requires 0 <= i < |s| => if s[i] == from then to else s[i])
  }

  /** Concatenation regroups freely. */
  lemma Regroup<T>(a: seq<T>, b: seq<T>, c: seq<T>)
    ensures a + (b + c) == (a + b) + c
  {
  }

  /** Substitution works element by element, so it splits around any
      position. */
  lemma SubstituteAround<T>(a: seq<T>, x: T, c: seq<T>, from: T, to: T)
    ensures Substitute(a + [x] + c, from, to)
      == Substitute(a, from, to) + [if x == from then to else x] + Substitute(c, from, to)
  {
    var s := a + [x] + c;
    assert forall i :: 0 <= i < |a| ==> s[i] == a[i];
    assert forall i :: 0 <= i < |c| ==> s[|a| + 1 + i] == c[i];
  }

  /** The in-place replacement loop of the query-string path: find the next
      `from`, overwrite it, and continue scanning just after it. */
  method ReplaceAll<T(==)>(s: seq<T>, from: T, to: T) returns (r: seq<T>)
    ensures |r| == |s|
    ensures forall i :: 0 <= i < |s| ==> r[i] == (if s[i] == from then to else s[i])
  {
    r := s;
    var pos := 0;  // start of the span not yet scanned
    while pos < |r|
      invariant pos <= |r| == |s|
      invariant forall i :: 0 <= i < pos ==> r[i] == (if s[i] == from then to else s[i])
      invariant r[pos..] == s[pos..]
    {
      var idx := IndexOf(r[pos..], from);
      if idx < 0 {
        assert forall i :: pos <= i < |s| ==> s[i] == r[pos..][i - pos];
        break;
      }
      assert forall i :: pos <= i < pos + idx ==> r[i] == r[pos..][..idx][i - pos];
      r := r[pos + idx := to];
      pos := pos + idx + 1;
    }
  }
}

=== FILE: cases.dfy ===
/** Concrete inputs and what the model makes of them: the edge cases of
    percent-decoding, '+' handling, and the pair scanner. Bytes are written
    as ASCII literals. */
module Cases {
  import opened Wrappers
  import opened Bytes
  import opened Percent
  import opened Scanner
  import opened FormParse
  import Dict
  import Experimental
  import Baseline

  /** "%41" is 'A'. */
  lemma ValidEscape()
    ensures PercentUnescape(Ascii("%41")) == 0x41
    ensures Unescape(Ascii("%41")) == Ascii("A")
  {
    var s := Ascii("%41");
    assert s == [PERCENT, 0x34, 0x31];
    assert s[3..] == [];
  }

  /** A truncated escape "%4" is kept as it is. */
  lemma TruncatedEscape()
    ensures PercentUnescape(Ascii("%4")) == -1
    ensures Unescape(Ascii("%4")) == Ascii("%4")
  {
    var s := Ascii("%4");
    assert s == [PERCENT, 0x34];
    assert s[1..] == [0x34];
  }

  /** An escape with non-hex digits "%zz" is kept as it is. */
  lemma NonHexEscape()
    ensures PercentUnescape(Ascii("%zz")) == -1
    ensures Unescape(Ascii("%zz")) == Ascii("%zz")
  {
    var s := Ascii("%zz");
    assert s == [PERCENT, 0x7A, 0x7A];
    assert s[1..] == [0x7A, 0x7A] && s[1..][1..] == [0x7A];
  }

  /** '+' becomes a space only in query-string mode. */
  lemma PlusHandling()
    ensures Experimental.Finish(Unescape(Ascii("a+b")), true) == Ascii("a b")
    ensures Experimental.Finish(Unescape(Ascii("a+b")), false) == Ascii("a+b")
  {
    var s := Ascii("a+b");
    assert s == [0x61, PLUS, 0x62];
    UnescapeNoPercent(s);
  }

  /** "%2B" decodes to a literal '+' in form mode. */
  lemma EscapedPlusInForm()
    ensures Experimental.Finish(Unescape(Ascii("%2B")), false) == Ascii("+")
  {
    Experimental.EscapedPlusDecodes();
  }

  /** An empty input stores nothing, in either mode and for any comparer. */
  lemma EmptyInput<S>(isQuery: bool, finish: (seq<byte>, bool) -> S, canon: S -> S, empty: S)
    ensures ParseSpec([], isQuery, finish, canon, empty) == []
  {
  }

  /** A piece `k=v` whose key and value hold no '%' stores the finished
      key and value. */
  lemma PlainPiece<S>(k: seq<byte>, v: seq<byte>, isQuery: bool, finish: (seq<byte>, bool) -> S, empty: S)
    requires EQUALS !in k && PERCENT !in k && PERCENT !in v
    ensures DecodePair(SplitPair(k + [EQUALS] + v), isQuery, finish, empty)
      == Dict.Entry(finish(k, isQuery), finish(v, isQuery))
  {
    SplitPairOfJoin(k, v);
    UnescapeNoPercent(k);
    UnescapeNoPercent(v);
  }

  /** Two pieces glued by '&' are stored one after the other. */
  lemma TwoPieces<S>(p1: seq<byte>, p2: seq<byte>, isQuery: bool, finish: (seq<byte>, bool) -> S, canon: S -> S,
                         empty: S)
    requires AMPERSAND !in p1 && AMPERSAND !in p2 && |p2| > 0
    ensures ParseSpec(p1 + [AMPERSAND] + p2, isQuery, finish, canon, empty)
      == Dict.Build([DecodePair(SplitPair(p1), isQuery, finish, empty),
                     DecodePair(SplitPair(p2), isQuery, finish, empty)], canon)
  {
    assert [p1, p2][1..] == [p2];
    assert Join([p1, p2], AMPERSAND) == p1 + [AMPERSAND] + p2;
    ChunksOfJoin([p1, p2]);
    assert DecodeChunks([p1, p2], isQuery, finish, empty)
      == [DecodePair(SplitPair(p1), isQuery, finish, empty), DecodePair(SplitPair(p2), isQuery, finish, empty)];
  }

  /** Two plain `k=v` pieces glued by '&' store their finished keys and
      values in order. */
  lemma TwoPlainPieces<S>(k1: seq<byte>, v1: seq<byte>, k2: seq<byte>, v2: seq<byte>, isQuery: bool,
                          finish: (seq<byte>, bool) -> S, canon: S -> S, empty: S)
    requires EQUALS !in k1 && PERCENT !in k1 && PERCENT !in v1 && AMPERSAND !in k1 && AMPERSAND !in v1
    requires EQUALS !in k2 && PERCENT !in k2 && PERCENT !in v2 && AMPERSAND !in k2 && AMPERSAND !in v2
    ensures ParseSpec(k1 + [EQUALS] + v1 + [AMPERSAND] + k2 + [EQUALS] + v2, isQuery, finish, canon, empty)
      == Dict.Build([Dict.Entry(finish(k1, isQuery), finish(v1, isQuery)),
                     Dict.Entry(finish(k2, isQuery), finish(v2, isQuery))], canon)
  {
    var p1, p2 := k1 + [EQUALS] + v1, k2 + [EQUALS] + v2;
    assert k1 + [EQUALS] + v1 + [AMPERSAND] + k2 + [EQUALS] + v2 == p1 + [AMPERSAND] + p2;
    TwoPieces(p1, p2, isQuery, finish, canon, empty);
    PlainPiece(k1, v1, isQuery, finish, empty);
    PlainPiece(k2, v2, isQuery, finish, empty);
  }

  /** A single entry is stored as it is. */
  lemma BuildOne<K, V>(e: Dict.Entry<K, V>, canon: K -> K)
    ensures Dict.Build([e], canon) == [e]
  {
    assert [e][..0] == [];
  }

  /** One plain `k=v` piece, alone or followed by '&', stores its finished
      key and value. */
  lemma OnePlainPiece<S>(k: seq<byte>, v: seq<byte>, isQuery: bool, finish: (seq<byte>, bool) -> S, canon: S -> S,
                         empty: S)
    requires EQUALS !in k && PERCENT !in k && PERCENT !in v && AMPERSAND !in k && AMPERSAND !in v
    ensures ParseSpec(k + [EQUALS] + v, isQuery, finish, canon, empty)
      == [Dict.Entry(finish(k, isQuery), finish(v, isQuery))]
    ensures ParseSpec(k + [EQUALS] + v + [AMPERSAND], isQuery, finish, canon, empty)
      == [Dict.Entry(finish(k, isQuery), finish(v, isQuery))]
  {
    var p := k + [EQUALS] + v;
    OnePiece(p);
    PlainPiece(k, v, isQuery, finish, empty);
    var e := Dict.Entry(finish(k, isQuery), finish(v, isQuery));
    assert DecodeChunks([p], isQuery, finish, empty) == [e];
    BuildOne(e, canon);
  }

  /** Storing two pairs: one entry when the keys are equivalent (first
      spelling, second value), two otherwise. */
  lemma BuildTwo<K, V>(e1: Dict.Entry<K, V>, e2: Dict.Entry<K, V>, canon: K -> K)
    ensures Dict.Build([e1, e2], canon)
      == if canon(e1.key) == canon(e2.key) then [Dict.Entry(e1.key, e2.value)] else [e1, e2]
  {
    assert [e1, e2][..1] == [e1];
    assert [e1][..0] == [];
    assert Dict.Build([e1], canon) == [e1];
  }

  /** A plain segment: no '%' to decode and no delimiter to split at. */
  predicate Plain(s: seq<byte>) {
    PERCENT !in s && AMPERSAND !in s && EQUALS !in s
  }

  /** One piece, with no '&' after it or with a trailing one, is the only piece. */
  lemma OnePiece(p: seq<byte>)
    requires AMPERSAND !in p && |p| > 0
    ensures Chunks(p) == [p]
    ensures Chunks(p + [AMPERSAND]) == [p]
  {
    var s := p + [AMPERSAND];
    assert s[..|p|] == p;
    IndexOfAt(s, AMPERSAND, |p|);
    ChunksStep(s, |p|);
    assert s[|p| + 1..] == [];
  }

  /** "k=v1&k=v2": the later value wins, whatever the keys become and
      however they compare. */
  lemma LastWriteWins<S>(k: seq<byte>, v1: seq<byte>, v2: seq<byte>, isQuery: bool,
                         finish: (seq<byte>, bool) -> S, canon: S -> S, empty: S)
    requires Plain(k) && Plain(v1) && Plain(v2)
    ensures ParseSpec(k + [EQUALS] + v1 + [AMPERSAND] + k + [EQUALS] + v2, isQuery, finish, canon, empty)
      == [Dict.Entry(finish(k, isQuery), finish(v2, isQuery))]
  {
    var fk := finish(k, isQuery);
    TwoPlainPieces(k, v1, k, v2, isQuery, finish, canon, empty);
    BuildTwo(Dict.Entry(fk, finish(v1, isQuery)), Dict.Entry(fk, finish(v2, isQuery)), canon);
  }

  /** "A=1&a=2" under OrdinalIgnoreCase: keys equal but for ASCII case make
      one entry, spelled as first seen, holding the later value. */
  lemma IgnoreCaseKeepsFirstSpelling(k1: seq<byte>, k2: seq<byte>, v1: seq<byte>, v2: seq<byte>)
    requires Plain(k1) && Plain(k2) && Plain(v1) && Plain(v2)
    requires Experimental.FoldCase(k1) == Experimental.FoldCase(k2)
    ensures ParseSpec(k1 + [EQUALS] + v1 + [AMPERSAND] + k2 + [EQUALS] + v2, false, Experimental.Finish,
                      Experimental.FoldCase, [])
      == [Dict.Entry(k1, v2)]
  {
    TwoPlainPieces(k1, v1, k2, v2, false, Experimental.Finish, Experimental.FoldCase, []);
    BuildTwo(Dict.Entry(k1, v1), Dict.Entry(k2, v2), Experimental.FoldCase);
  }

  /** The upper- and lower-case spellings of a letter fold together. */
  lemma FoldCaseLetter()
    ensures Experimental.FoldCase([0x41]) == Experimental.FoldCase([0x61]) == [0x41]
  {
  }

  /** A one-byte ASCII segment decodes to its one character. */
  lemma DecodeOneAscii(dec: seq<byte> -> string, b: byte)
    requires Baseline.KeepsAscii(dec) && b < 0x80
    ensures dec([b]) == [b as int as char]
  {
    assert Baseline.AsciiBytes([b]);
  }

  /** Under ordinal comparison, keys that decode differently make two entries,
      however they compare ignoring case: "A=1&a=2" keeps both. */
  lemma OrdinalKeepsBoth(dec: seq<byte> -> string, k1: seq<byte>, k2: seq<byte>, v1: seq<byte>, v2: seq<byte>)
    requires Plain(k1) && Plain(k2) && Plain(v1) && Plain(v2)
    requires dec(k1) != dec(k2)
    ensures ParseSpec(k1 + [EQUALS] + v1 + [AMPERSAND] + k2 + [EQUALS] + v2, false,
                      (b, q) => Baseline.Finish(dec, b, q), Baseline.Ordinal, "")
      == [Dict.Entry(dec(k1), dec(v1)), Dict.Entry(dec(k2), dec(v2))]
  {
    var finish := (b, q) => Baseline.Finish(dec, b, q);
    TwoPlainPieces(k1, v1, k2, v2, false, finish, Baseline.Ordinal, "");
    BuildTwo(Dict.Entry(dec(k1), dec(v1)), Dict.Entry(dec(k2), dec(v2)), Baseline.Ordinal);
  }

  /** The literal "A=1&a=2" under OrdinalIgnoreCase: one entry, "A", holding "2". */
  lemma IgnoreCaseExample()
    ensures ParseSpec(Ascii("A=1&a=2"), false, Experimental.Finish, Experimental.FoldCase, [])
      == [Dict.Entry(Ascii("A"), Ascii("2"))]
  {
    assert Ascii("A=1&a=2") == [0x41] + [EQUALS] + [0x31] + [AMPERSAND] + [0x61] + [EQUALS] + [0x32];
    assert Ascii("A") == [0x41] && Ascii("2") == [0x32];
    FoldCaseLetter();
    IgnoreCaseKeepsFirstSpelling([0x41], [0x61], [0x31], [0x32]);
  }

  /** The literal "A=1&a=2" under ordinal comparison, with a decoder that
      keeps ASCII: two entries, "A" holding "1" and "a" holding "2". */
  lemma OrdinalExample(dec: seq<byte> -> string)
    requires Baseline.KeepsAscii(dec)
    ensures ParseSpec(Ascii("A=1&a=2"), false, (b, q) => Baseline.Finish(dec, b, q), Baseline.Ordinal, "")
      == [Dict.Entry("A", "1"), Dict.Entry("a", "2")]
  {
    assert Ascii("A=1&a=2") == [0x41] + [EQUALS] + [0x31] + [AMPERSAND] + [0x61] + [EQUALS] + [0x32];
    DecodeOneAscii(dec, 0x41);
    DecodeOneAscii(dec, 0x61);
    DecodeOneAscii(dec, 0x31);
    DecodeOneAscii(dec, 0x32);
    OrdinalKeepsBoth(dec, [0x41], [0x61], [0x31], [0x32]);
  }

  /** "k=v&": a trailing '&' adds nothing. */
  lemma TrailingAmpersand<S>(k: seq<byte>, v: seq<byte>, isQuery: bool, finish: (seq<byte>, bool) -> S,
                             canon: S -> S, empty: S)
    requires Plain(k) && Plain(v)
    ensures ParseSpec(k + [EQUALS] + v + [AMPERSAND], isQuery, finish, canon, empty)
      == ParseSpec(k + [EQUALS] + v, isQuery, finish, canon, empty)
      == [Dict.Entry(finish(k, isQuery), finish(v, isQuery))]
  {
    OnePlainPiece(k, v, isQuery, finish, canon, empty);
  }

  /** "k": a piece without '=' stores the empty value, not a decoded one. */
  lemma NoEqualsMeansEmptyValue<S>(k: seq<byte>, isQuery: bool, finish: (seq<byte>, bool) -> S, canon: S -> S,
                                   empty: S)
    requires Plain(k) && |k| > 0
    ensures ParseSpec(k, isQuery, finish, canon, empty) == [Dict.Entry(finish(k, isQuery), empty)]
  {
    OnePiece(k);
    assert SplitPair(k) == RawPair(k, None);
    UnescapeNoPercent(k);
    var e := Dict.Entry(finish(k, isQuery), empty);
    assert DecodeChunks([k], isQuery, finish, empty) == [e];
    BuildOne(e, canon);
  }

  /** "a=b=c": the piece splits at its first '='; later ones stay in the value. */
  lemma LaterEqualsStayInValue<S>(k: seq<byte>, v: seq<byte>, isQuery: bool, finish: (seq<byte>, bool) -> S,
                                  canon: S -> S, empty: S)
    requires Plain(k) && PERCENT !in v && AMPERSAND !in v
    ensures ParseSpec(k + [EQUALS] + v, isQuery, finish, canon, empty)
      == [Dict.Entry(finish(k, isQuery), finish(v, isQuery))]
  {
    OnePlainPiece(k, v, isQuery, finish, canon, empty);
  }

  /** Two '&'s in a row leave an empty piece between their neighbours. */
  lemma EmptyBetween(p1: seq<byte>, p2: seq<byte>)
    requires AMPERSAND !in p1 && AMPERSAND !in p2 && |p2| > 0
    ensures Chunks(p1 + [AMPERSAND, AMPERSAND] + p2) == [p1, [], p2]
  {
    var cs := [p1, [], p2];
    assert cs[1..] == [[], p2] && cs[1..][1..] == [p2];
    assert Join(cs[1..][1..], AMPERSAND) == p2;
    assert Join(cs[1..], AMPERSAND) == [] + [AMPERSAND] + p2;
    assert Join(cs, AMPERSAND) == p1 + [AMPERSAND] + ([] + [AMPERSAND] + p2);
    assert p1 + [AMPERSAND, AMPERSAND] + p2 == p1 + [AMPERSAND] + ([] + [AMPERSAND] + p2);
    ChunksOfJoin(cs);
  }

  /** Storing a third pair under a key equivalent to neither stored key
      appends it. */
  lemma BuildThreeApart<K, V>(e1: Dict.Entry<K, V>, e2: Dict.Entry<K, V>, e3: Dict.Entry<K, V>, canon: K -> K)
    requires canon(e1.key) != canon(e2.key) && canon(e3.key) != canon(e1.key) && canon(e3.key) != canon(e2.key)
    ensures Dict.Build([e1, e2, e3], canon) == [e1, e2, e3]
  {
    BuildTwo(e1, e2, canon);
    assert [e1, e2, e3][..2] == [e1, e2];
    assert Dict.Find([e1, e2], e3.key, canon) == -1;
  }

  /** The empty piece decodes to an empty key with the empty value. */
  lemma EmptyPieceDecodes(isQuery: bool)
    ensures DecodePair(SplitPair([]), isQuery, Experimental.Finish, []) == Dict.Entry([], [])
  {
    assert SplitPair([]) == RawPair([], None);
    assert Unescape([]) == [];
    assert Experimental.Finish([], isQuery) == [];
  }

  /** The three entries of "k1=v1&&k2=v2". */
  lemma EmptyPieceEntries(k1: seq<byte>, v1: seq<byte>, k2: seq<byte>, v2: seq<byte>)
    requires Plain(k1) && Plain(v1) && Plain(k2) && Plain(v2)
    ensures DecodeChunks(Chunks(k1 + [EQUALS] + v1 + [AMPERSAND, AMPERSAND] + k2 + [EQUALS] + v2), false,
                         Experimental.Finish, [])
      == [Dict.Entry(k1, v1), Dict.Entry([], []), Dict.Entry(k2, v2)]
  {
    var p1, p2 := k1 + [EQUALS] + v1, k2 + [EQUALS] + v2;
    assert k1 + [EQUALS] + v1 + [AMPERSAND, AMPERSAND] + k2 + [EQUALS] + v2 == p1 + [AMPERSAND, AMPERSAND] + p2;
    EmptyBetween(p1, p2);
    ThreeEntries(k1, v1, k2, v2);
  }

  lemma ThreeEntries(k1: seq<byte>, v1: seq<byte>, k2: seq<byte>, v2: seq<byte>)
    requires Plain(k1) && Plain(v1) && Plain(k2) && Plain(v2)
    ensures DecodeChunks([k1 + [EQUALS] + v1, [], k2 + [EQUALS] + v2], false, Experimental.Finish, [])
      == [Dict.Entry(k1, v1), Dict.Entry([], []), Dict.Entry(k2, v2)]
  {
    PlainPiece(k1, v1, false, Experimental.Finish, []);
    PlainPiece(k2, v2, false, Experimental.Finish, []);
    EmptyPieceDecodes(false);
  }

  /** "k1=v1&&k2=v2": the empty piece between the two '&'s is stored as an
      empty key with an empty value. */
  lemma EmptyPieceKept(k1: seq<byte>, v1: seq<byte>, k2: seq<byte>, v2: seq<byte>)
    requires Plain(k1) && Plain(v1) && Plain(k2) && Plain(v2)
    requires |k1| > 0 && |k2| > 0 && Experimental.FoldCase(k1) != Experimental.FoldCase(k2)
    ensures ParseSpec(k1 + [EQUALS] + v1 + [AMPERSAND, AMPERSAND] + k2 + [EQUALS] + v2, false, Experimental.Finish,
                      Experimental.FoldCase, [])
      == [Dict.Entry(k1, v1), Dict.Entry([], []), Dict.Entry(k2, v2)]
  {
    EmptyPieceEntries(k1, v1, k2, v2);
    BuildThreeApart(Dict.Entry(k1, v1), Dict.Entry([], []), Dict.Entry(k2, v2), Experimental.FoldCase);
  }
}

=== FILE: dict.dfy ===
/** The result dictionary. Keys are compared through a canonical form
    (`canon`): two keys are the same entry when their canonical forms agree,
    which makes the comparer an equivalence by construction. Ordinal
    comparison is `canon` = identity; OrdinalIgnoreCase is a case fold.
    Storing into an existing entry keeps the key spelling first stored and
    replaces the value, as the dictionary indexer does. */
module Dict {
  import opened Wrappers

  datatype Entry<K, V> = Entry(key: K, value: V)

  /** Entries in insertion order. */
  type Dict<K, V> = seq<Entry<K, V>>

  /** No two entries have equivalent keys. */
  predicate DistinctKeys<K(==), V>(d: Dict<K, V>, canon: K -> K) {
    forall i, j :: 0 <= i < j < |d| ==> canon(d[i].key) != canon(d[j].key)
  }

  /** Position of the entry whose key is equivalent to `k`, or -1. */
  function Find<K(==), V>(d: Dict<K, V>, k: K, canon: K -> K): (r: int)
    ensures -1 <= r < |d|
    ensures r < 0 <==> forall i :: 0 <= i < |d| ==> canon(d[i].key) != canon(k)
    ensures r >= 0 ==> canon(d[r].key) == canon(k)
    decreases |d|
  {
    if |d| == 0 then -1
    else if canon(d[|d| - 1].key) == canon(k) then |d| - 1
    else Find(d[..|d| - 1], k, canon)
  }

  /** The value stored under a key equivalent to `k`, if any. */
  function Lookup<K(==), V>(d: Dict<K, V>, k: K, canon: K -> K): Option<V> {
    var i := Find(d, k, canon);
    if i < 0 then None else Some(d[i].value)
  }

  /** `dictionary[k] = v`: overwrite the value of an equivalent key (keeping
      the stored key), or add a new entry at the end. */
  function Insert<K(==), V>(d: Dict<K, V>, k: K, v: V, canon: K -> K): (r: Dict<K, V>)
    ensures DistinctKeys(d, canon) ==> DistinctKeys(r, canon)
    ensures DistinctKeys(d, canon) ==> Lookup(r, k, canon) == Some(v)
    ensures |r| == |d| || |r| == |d| + 1
    ensures forall i :: 0 <= i < |d| ==> r[i].key == d[i].key
    ensures |r| == |d| + 1 <==> Lookup(d, k, canon).None?
  {
    var i := Find(d, k, canon);
    if i < 0 then
      var r := d + [Entry(k, v)];
      assert r[..|d|] == d;
      r
    else
      var r := d[i := Entry(d[i].key, v)];
      FindSameKeys(d, r, k, canon);
      r
  }

  /** Storing under `k` leaves every key not equivalent to `k` as it was. */
  lemma InsertOther<K, V>(d: Dict<K, V>, k: K, v: V, k': K, canon: K -> K)
    requires canon(k') != canon(k)
    ensures Lookup(Insert(d, k, v, canon), k', canon) == Lookup(d, k', canon)
  {
    var r := Insert(d, k, v, canon);
    var i := Find(d, k, canon);
    if i < 0 {
      assert r == d + [Entry(k, v)];
      assert Find(r, k', canon) == Find(d, k', canon) by { assert r[..|d|] == d; }
    } else {
      FindSameKeys(d, r, k', canon);
      var j := Find(d, k', canon);
      assert j != i;
    }
  }

  /** Find depends on the keys only. */
  lemma {:induction false} FindSameKeys<K, V>(d: Dict<K, V>, e: Dict<K, V>, k: K, canon: K -> K)
    requires |d| == |e| && forall i :: 0 <= i < |d| ==> d[i].key == e[i].key
    ensures Find(d, k, canon) == Find(e, k, canon)
    decreases |d|
  {
    if |d| > 0 {
      FindSameKeys(d[..|d| - 1], e[..|e| - 1], k, canon);
    }
  }

  /** The dictionary built by storing `pairs` one after another, from empty. */
  function Build<K(==), V>(pairs: seq<Entry<K, V>>, canon: K -> K): Dict<K, V>
    decreases |pairs|
  {
    if |pairs| == 0 then []
    else
      var last := pairs[|pairs| - 1];
      Insert(Build(pairs[..|pairs| - 1], canon), last.key, last.value, canon)
  }

  /** Reference meaning of last-write-wins: the value of the last pair
      whose key is equivalent to `k`. */
  function LastValue<K(==), V>(pairs: seq<Entry<K, V>>, k: K, canon: K -> K): Option<V>
    decreases |pairs|
  {
    if |pairs| == 0 then None
    else if canon(pairs[|pairs| - 1].key) == canon(k) then Some(pairs[|pairs| - 1].value)
    else LastValue(pairs[..|pairs| - 1], k, canon)
  }

  /** The spelling of the first pair whose key is equivalent to `k`. */
  function FirstKey<K(==), V>(pairs: seq<Entry<K, V>>, k: K, canon: K -> K): Option<K>
    decreases |pairs|
  {
    if |pairs| == 0 then None
    else
      var earlier := FirstKey(pairs[..|pairs| - 1], k, canon);
      if earlier.Some? then earlier
      else if canon(pairs[|pairs| - 1].key) == canon(k) then Some(pairs[|pairs| - 1].key)
      else None
  }

  lemma {:induction false} BuildDistinct<K, V>(pairs: seq<Entry<K, V>>, canon: K -> K)
    ensures DistinctKeys(Build(pairs, canon), canon)
    decreases |pairs|
  {
    if |pairs| > 0 {
      BuildDistinct(pairs[..|pairs| - 1], canon);
    }
  }

  /** Last write wins: looking a key up in the built dictionary gives the
      value of the last pair with an equivalent key, and nothing when no
      pair has one. */
  lemma {:induction false} BuildLookup<K, V>(pairs: seq<Entry<K, V>>, k: K, canon: K -> K)
    ensures Lookup(Build(pairs, canon), k, canon) == LastValue(pairs, k, canon)
    decreases |pairs|
  {
    if |pairs| > 0 {
      var init, last := pairs[..|pairs| - 1], pairs[|pairs| - 1];
      BuildDistinct(init, canon);
      BuildLookup(init, k, canon);
      if canon(last.key) != canon(k) {
        InsertOther(Build(init, canon), last.key, last.value, k, canon);
      }
    }
  }

  /** The key kept for an equivalence class is the spelling of the first
      pair that used it; later equivalent keys only replace the value. */
  lemma {:induction false} BuildStoredKey<K, V>(pairs: seq<Entry<K, V>>, k: K, canon: K -> K)
    ensures Find(Build(pairs, canon), k, canon) >= 0 <==> FirstKey(pairs, k, canon).Some?
    ensures Find(Build(pairs, canon), k, canon) >= 0 ==>
      Build(pairs, canon)[Find(Build(pairs, canon), k, canon)].key == FirstKey(pairs, k, canon).value
    decreases |pairs|
  {
    if |pairs| > 0 {
      var init, last := pairs[..|pairs| - 1], pairs[|pairs| - 1];
      var d := Build(init, canon);
      var j := Find(d, k, canon);
      assert (j >= 0 <==> FirstKey(init, k, canon).Some?) && (j >= 0 ==> d[j].key == FirstKey(init, k, canon).value) by {
        BuildStoredKey(init, k, canon);
      }
      var d' := Insert(d, last.key, last.value, canon);
      if Find(d, last.key, canon) < 0 {
        assert d' == d + [Entry(last.key, last.value)];
        assert d'[..|d|] == d;
      } else {
        FindSameKeys(d, d', k, canon);
      }
    }
  }
}

=== FILE: experimental.dfy ===
/** The experimental variant: keys and values are UTF-8 strings (their
    bytes, copied unchanged), '+' is replaced byte by byte in query-string
    mode, and keys are compared OrdinalIgnoreCase. */
module Experimental {
  import opened Wrappers
  import opened Bytes
  import opened Percent
  import opened Scratch
  import opened Scanner
  import opened FormParse
  import Dict

  /** The string a decoded segment becomes: its bytes, taken to be copied
      unchanged into the `Utf8String` (no U+FFFD substitution for ill-formed
      UTF-8), with every '+' turned into a space in query-string mode. */
  function Finish(decoded: seq<byte>, isQuery: bool): seq<byte> {
    if isQuery then Substitute(decoded, PLUS, SPACE) else decoded
  }

  /** OrdinalIgnoreCase as a canonical form: ASCII lower-case letters are
      folded to upper case, every other byte is kept. */
  function FoldCase(s: seq<byte>): (r: seq<byte>)
    ensures |r| == |s|
  {
    seq(|s|, i requires 0 <= i < |s| => if 0x61 <= s[i] <= 0x7A then s[i] - 0x20 else s[i])
  }

  /** `MakeStringFrom`: percent-decode through the shared buffer, then copy
      the decoded bytes into the string, replacing each '+' by a space in
      query-string mode. */
  method MakeStringFrom(input: seq<byte>, borrowed: Option<seq<byte>>, isQuery: bool, grant: nat -> nat)
    returns (text: seq<byte>, borrowed': Option<seq<byte>>, log: seq<PoolEvent>)
    requires IsPool(grant)
    ensures var decoded := Unescape(input);
      && |text| == |decoded|
      && (isQuery ==> forall i :: 0 <= i < |text| ==> text[i] == if decoded[i] == PLUS then SPACE else decoded[i])
      && (!isQuery ==> text == decoded)
    ensures text == Finish(Unescape(input), isQuery)
    ensures PERCENT !in input ==> borrowed' == borrowed && log == []
    ensures PERCENT in input ==> borrowed'.Some? && |borrowed'.value| >= |input|
    ensures Disciplined(CapacityOf(borrowed), log, CapacityOf(borrowed'))
    ensures (log, CapacityOf(borrowed')) == SegmentTraffic(input, CapacityOf(borrowed), grant)
  {
    var decoded;
    decoded, borrowed', log := DecodeSegment(input, borrowed, grant);
    if isQuery {
      text := ReplaceAll(decoded, PLUS, SPACE);
    } else {
      text := decoded;  // form mode keeps '+' as it is
    }
  }

  /** `Parse` with UTF-8 strings and the OrdinalIgnoreCase comparer. */
  method Parse(input: seq<byte>, isQuery: bool, grant: nat -> nat)
    returns (d: Dict.Dict<seq<byte>, seq<byte>>, log: seq<PoolEvent>)
    requires IsPool(grant)
    ensures d == ParseSpec(input, isQuery, Finish, FoldCase, [])
    ensures Replay(None, log) == Some(None)
    ensures log == [] <==> PERCENT !in input
    ensures StrictlyIncreasing(Rents(log))
    ensures var t := PiecesTraffic(Chunks(input), None, grant);
      log == t.0 + (if t.1.Some? then [Return(t.1.value)] else [])
  {
    d, log := FormParse.Parse(input, isQuery, Finish, FoldCase, [], grant);
  }

  /** Looking a key up in the parsed dictionary, case-insensitively, gives
      the value of the last pair whose key matches it ignoring case, and
      the stored key is spelled as the first such pair spelled it. */
  lemma {:induction false} LookupIgnoresCase(input: seq<byte>, isQuery: bool, k: seq<byte>)
    ensures var pairs := DecodeChunks(Chunks(input), isQuery, Finish, []);
      var d := ParseSpec(input, isQuery, Finish, FoldCase, []);
      && Dict.Lookup(d, k, FoldCase) == Dict.LastValue(pairs, k, FoldCase)
      && (Dict.Find(d, k, FoldCase) >= 0 ==> Dict.FirstKey(pairs, k, FoldCase) == Some(d[Dict.Find(d, k, FoldCase)].key))
  {
    var pairs := DecodeChunks(Chunks(input), isQuery, Finish, []);
    Dict.BuildLookup(pairs, k, FoldCase);
    Dict.BuildStoredKey(pairs, k, FoldCase);
  }

  /** The form encoding of a list of pairs: each key and value
      percent-encoded, joined by '=', the pairs joined by '&'. */
  function Serialize(pairs: seq<Dict.Entry<seq<byte>, seq<byte>>>): seq<byte> {
    Join(EncodePieces(pairs), AMPERSAND)
  }

  function EncodePieces(pairs: seq<Dict.Entry<seq<byte>, seq<byte>>>): seq<seq<byte>> {
    seq(|pairs|, i requires 0 <= i < |pairs| => Escape(pairs[i].key) + [EQUALS] + Escape(pairs[i].value))
  }

  /** One encoded pair holds no '&' and decodes back to the pair, '+' aside. */
  lemma DecodeEncodedPiece(e: Dict.Entry<seq<byte>, seq<byte>>, isQuery: bool)
    ensures AMPERSAND !in Escape(e.key) + [EQUALS] + Escape(e.value)
    ensures DecodePair(SplitPair(Escape(e.key) + [EQUALS] + Escape(e.value)), isQuery, Finish, [])
      == Dict.Entry(Finish(e.key, isQuery), Finish(e.value, isQuery))
  {
    EscapeAvoidsDelimiters(e.key);
    EscapeAvoidsDelimiters(e.value);
    SplitPairOfJoin(Escape(e.key), Escape(e.value));
    UnescapeEscape(e.key);
    UnescapeEscape(e.value);
  }

  /** Every encoded pair decodes back to its pair, '+' aside. */
  lemma DecodeEncodedPieces(pairs: seq<Dict.Entry<seq<byte>, seq<byte>>>, isQuery: bool)
    ensures DecodeChunks(EncodePieces(pairs), isQuery, Finish, [])
      == seq(|pairs|, i requires 0 <= i < |pairs| =>
               Dict.Entry(Finish(pairs[i].key, isQuery), Finish(pairs[i].value, isQuery)))
  {
    var cs := EncodePieces(pairs);
    forall k | 0 <= k < |cs|
      ensures DecodePair(SplitPair(cs[k]), isQuery, Finish, [])
        == Dict.Entry(Finish(pairs[k].key, isQuery), Finish(pairs[k].value, isQuery))
    {
      DecodeEncodedPiece(pairs[k], isQuery);
    }
  }

  /** The pieces of a serialized list are its encoded pairs. */
  lemma ChunksOfSerialize(pairs: seq<Dict.Entry<seq<byte>, seq<byte>>>)
    ensures Chunks(Serialize(pairs)) == EncodePieces(pairs)
  {
    var cs := EncodePieces(pairs);
    forall k | 0 <= k < |cs|
      ensures AMPERSAND !in cs[k]
    {
      DecodeEncodedPiece(pairs[k], false);
    }
    ChunksOfJoin(cs);
  }

  /** The pieces of a serialized list decode back to its pairs, '+' aside. */
  lemma DecodeSerialized(pairs: seq<Dict.Entry<seq<byte>, seq<byte>>>, isQuery: bool)
    ensures DecodeChunks(Chunks(Serialize(pairs)), isQuery, Finish, [])
      == seq(|pairs|, i requires 0 <= i < |pairs| =>
               Dict.Entry(Finish(pairs[i].key, isQuery), Finish(pairs[i].value, isQuery)))
  {
    ChunksOfSerialize(pairs);
    DecodeEncodedPieces(pairs, isQuery);
  }

  /** Form mode round trip: parsing the serialization of any list of pairs
      stores exactly those pairs, one after another, so the dictionary
      holds the last value given to each key. */
  lemma FormRoundTrip(pairs: seq<Dict.Entry<seq<byte>, seq<byte>>>, canon: seq<byte> -> seq<byte>)
    ensures ParseSpec(Serialize(pairs), false, Finish, canon, []) == Dict.Build(pairs, canon)
  {
    DecodeSerialized(pairs, false);
    assert DecodeChunks(Chunks(Serialize(pairs)), false, Finish, []) == pairs;
  }

  /** Query-string round trip: for keys and values without '+', parsing
      the serialization in query-string mode also stores exactly the pairs. */
  lemma QueryRoundTrip(pairs: seq<Dict.Entry<seq<byte>, seq<byte>>>, canon: seq<byte> -> seq<byte>)
    requires forall i :: 0 <= i < |pairs| ==> PLUS !in pairs[i].key && PLUS !in pairs[i].value
    ensures ParseSpec(Serialize(pairs), true, Finish, canon, []) == Dict.Build(pairs, canon)
  {
    DecodeSerialized(pairs, true);
    forall i | 0 <= i < |pairs|
      ensures Finish(pairs[i].key, true) == pairs[i].key && Finish(pairs[i].value, true) == pairs[i].value
    {
    }
    assert DecodeChunks(Chunks(Serialize(pairs)), true, Finish, []) == pairs;
  }

  /** "%2B" is how the encoder writes '+', and it decodes back to '+'. */
  lemma EscapedPlusDecodes()
    ensures Escape([PLUS]) == Ascii("%2B")
    ensures Unescape(Ascii("%2B")) == [PLUS]
  {
    assert Ascii("%2B") == [PERCENT, 0x32, 0x42];
    assert Escape([PLUS]) == EscapeByte(PLUS) + Escape([]);
    assert Ascii("%2B") == EscapeByte(PLUS) + [];
    UnescapeConsEscape(PLUS, []);
  }

  /** In query-string mode the round trip holds only for text without '+':
      an encoded '+' ("%2B") decodes to a space, because '+' is replaced
      after percent-decoding. */
  lemma QueryModeEscapedPlus()
    ensures Finish(Unescape(Escape([PLUS])), true) == [SPACE]
  {
    EscapedPlusDecodes();
  }
}

=== FILE: formparse.dfy ===
/** `FormParse.Parse`, shared by both variants: scan the pairs, decode each
    key and value through one scratch buffer, store them last-write-wins,
    give the buffer back once at the end. What a decoded segment becomes
    (`finish`: the text of a C# string or the bytes of a UTF-8 string, with or without '+'
    replaced) and how keys compare (`canon`) are the variant's choice. */
module FormParse {
  import opened Wrappers
  import opened Bytes
  import opened Percent
  import opened Scratch
  import opened Scanner
  import Dict

  /** The entry a raw pair stores: a piece without '=' stores the empty
      value directly. */
  function DecodePair<S>(p: RawPair, isQuery: bool, finish: (seq<byte>, bool) -> S, empty: S): Dict.Entry<S, S> {
    Dict.Entry(
      finish(Unescape(p.key), isQuery),
      match p.value
      case None => empty
      case Some(v) => finish(Unescape(v), isQuery))
  }

  /** The entries of a run of pieces, in order. */
  function DecodeChunks<S>(cs: seq<seq<byte>>, isQuery: bool, finish: (seq<byte>, bool) -> S, empty: S)
    : seq<Dict.Entry<S, S>>
  {
    seq(|cs|, i requires 0 <= i < |cs| => DecodePair(SplitPair(cs[i]), isQuery, finish, empty))
  }

  /** What `Parse` returns, stated without its scratch buffer: the pieces
      of the input, decoded and stored one after another. */
  function ParseSpec<S(==)>(input: seq<byte>, isQuery: bool, finish: (seq<byte>, bool) -> S, canon: S -> S, empty: S)
    : Dict.Dict<S, S>
  {
    Dict.Build(DecodeChunks(Chunks(input), isQuery, finish, empty), canon)
  }

  /** Storing one more piece extends the built dictionary by that piece. */
  lemma BuildSnoc<S>(cs: seq<seq<byte>>, c: seq<byte>, isQuery: bool, finish: (seq<byte>, bool) -> S, canon: S -> S, empty: S)
    ensures var e := DecodePair(SplitPair(c), isQuery, finish, empty);
      Dict.Build(DecodeChunks(cs + [c], isQuery, finish, empty), canon)
      == Dict.Insert(Dict.Build(DecodeChunks(cs, isQuery, finish, empty), canon), e.key, e.value, canon)
  {
    var all := DecodeChunks(cs + [c], isQuery, finish, empty);
    assert all[..|cs|] == DecodeChunks(cs, isQuery, finish, empty);
  }

  /** Some piece of `cs` holds a '%'. */
  predicate AnyPercent(cs: seq<seq<byte>>) {
    exists k :: 0 <= k < |cs| && PERCENT in cs[k]
  }

  lemma AnyPercentSnoc(cs: seq<seq<byte>>, c: seq<byte>)
    ensures AnyPercent(cs + [c]) <==> AnyPercent(cs) || PERCENT in c
  {
    var all := cs + [c];
    assert all[|cs|] == c;
    assert forall k :: 0 <= k < |cs| ==> all[k] == cs[k];
  }

  /** Returning the buffer a disciplined log ends up holding leaves nothing
      held and rents nothing more. */
  lemma GiveBack(log: seq<PoolEvent>, held: nat)
    requires Disciplined(None, log, Some(held))
    ensures Replay(None, log + [Return(held)]) == Some(None)
    ensures Rents(log + [Return(held)]) == Rents(log)
  {
    var ret := [Return(held)];
    ReplayAppend(None, log, ret);
    RentsAppend(log, ret);
    assert Rents(ret) == [];
    assert Rents(log) + [] == Rents(log);
  }

  /** The pool traffic of one piece: that of its key, then that of its
      value (if any) starting from what the key left held. */
  function PieceTraffic(p: RawPair, held: Option<nat>, grant: nat -> nat): (seq<PoolEvent>, Option<nat>) {
    var key := SegmentTraffic(p.key, held, grant);
    match p.value
    case None => key
    case Some(v) =>
      var value := SegmentTraffic(v, key.1, grant);
      (key.0 + value.0, value.1)
  }

  /** The pool traffic of a run of pieces decoded one after another, and
      the capacity held after them. */
  function PiecesTraffic(cs: seq<seq<byte>>, held: Option<nat>, grant: nat -> nat): (seq<PoolEvent>, Option<nat>)
    decreases |cs|
  {
    if |cs| == 0 then ([], held)
    else
      var before := PiecesTraffic(cs[..|cs| - 1], held, grant);
      var last := PieceTraffic(SplitPair(cs[|cs| - 1]), before.1, grant);
      (before.0 + last.0, last.1)
  }

  lemma PiecesTrafficSnoc(cs: seq<seq<byte>>, c: seq<byte>, held: Option<nat>, grant: nat -> nat)
    ensures var before := PiecesTraffic(cs, held, grant);
      var last := PieceTraffic(SplitPair(c), before.1, grant);
      PiecesTraffic(cs + [c], held, grant) == (before.0 + last.0, last.1)
  {
    assert (cs + [c])[..|cs|] == cs;
  }

  /** Where the scan stands: `rest` is no longer than `input` and ends as
      `input` does, and it is empty only when `input` is empty or ends
      with '&'. */
  predicate ScanTail(input: seq<byte>, rest: seq<byte>) {
    && |rest| <= |input|
    && (|rest| > 0 ==> rest[|rest| - 1] == input[|input| - 1])
    && (rest == [] ==> |input| == 0 || input[|input| - 1] == AMPERSAND)
  }

  /** Moving past the '&' at `i` keeps the scan's position consistent. */
  lemma ScanTailStep(input: seq<byte>, rest: seq<byte>, i: nat)
    requires ScanTail(input, rest) && i < |rest| && rest[i] == AMPERSAND
    ensures ScanTail(input, rest[i + 1..])
  {
    var r := rest[i + 1..];
    if |r| > 0 {
      assert r[|r| - 1] == rest[|rest| - 1];
    }
  }

  /** One `key=value` or `key` piece (lines 156-166, and 177-187 for the
      piece after the last '&'): split at the first '=', decode the key
      and then the value through the shared buffer, store the pair. */
  method StorePiece<S(==)>(chunk: seq<byte>, isQuery: bool, finish: (seq<byte>, bool) -> S, canon: S -> S, empty: S,
                           grant: nat -> nat, d: Dict.Dict<S, S>, borrowed: Option<seq<byte>>)
    returns (d': Dict.Dict<S, S>, borrowed': Option<seq<byte>>, log: seq<PoolEvent>)
    requires IsPool(grant)
    ensures var e := DecodePair(SplitPair(chunk), isQuery, finish, empty);
      d' == Dict.Insert(d, e.key, e.value, canon)
    ensures Disciplined(CapacityOf(borrowed), log, CapacityOf(borrowed'))
    ensures PERCENT in chunk ==> borrowed'.Some?
    ensures PERCENT !in chunk ==> log == [] && borrowed' == borrowed
    ensures (log, CapacityOf(borrowed')) == PieceTraffic(SplitPair(chunk), CapacityOf(borrowed), grant)
  {
    var indexOfEqualChar := IndexOf(chunk, EQUALS);
    if indexOfEqualChar < 0 {
      // no value: the key is stored with the empty value
      var key;
      key, borrowed', log := DecodeSegment(chunk, borrowed, grant);
      d' := Dict.Insert(d, finish(key, isQuery), empty, canon);
    } else {
      var key, value, b1, l1, l2;
      key, b1, l1 := DecodeSegment(chunk[..indexOfEqualChar], borrowed, grant);
      value, borrowed', l2 := DecodeSegment(chunk[indexOfEqualChar + 1..], b1, grant);
      DisciplinedAppend(CapacityOf(borrowed), l1, CapacityOf(b1), l2, CapacityOf(borrowed'));
      log := l1 + l2;
      InAround(chunk, indexOfEqualChar, PERCENT);
      d' := Dict.Insert(d, finish(key, isQuery), finish(value, isQuery), canon);
    }
  }

  /** The scanning loop's invariant: `done` are the pieces stored so far
      and `consumed` the input they came from, with their '&'s; `rest` is
      the input still to scan. */
  ghost predicate Scanned<S>(input: seq<byte>, isQuery: bool, finish: (seq<byte>, bool) -> S, canon: S -> S,
                            empty: S, grant: nat -> nat, d: Dict.Dict<S, S>, borrowed: Option<seq<byte>>,
                            log: seq<PoolEvent>, rest: seq<byte>, done: seq<seq<byte>>, consumed: seq<byte>)
  {
    && (PERCENT in input <==> PERCENT in consumed || PERCENT in rest)
    && Chunks(input) == done + Chunks(rest)
    && d == Dict.Build(DecodeChunks(done, isQuery, finish, empty), canon)
    && Disciplined(None, log, CapacityOf(borrowed))
    && (borrowed.None? <==> PERCENT !in consumed)
    && (borrowed.Some? <==> AnyPercent(done))
    && (log, CapacityOf(borrowed)) == PiecesTraffic(done, None, grant)
    && ScanTail(input, rest)
  }

  /** One turn of the scanning loop, lines 156-169: store the piece before
      the '&' at `i` and move past it. */
  method StoreNext<S(==)>(input: seq<byte>, isQuery: bool, finish: (seq<byte>, bool) -> S, canon: S -> S,
                          empty: S, grant: nat -> nat, d: Dict.Dict<S, S>, borrowed: Option<seq<byte>>,
                          log: seq<PoolEvent>, rest: seq<byte>, ghost done: seq<seq<byte>>,
                          ghost consumed: seq<byte>, i: nat)
    returns (d': Dict.Dict<S, S>, borrowed': Option<seq<byte>>, log': seq<PoolEvent>, rest': seq<byte>,
             ghost done': seq<seq<byte>>, ghost consumed': seq<byte>)
    requires IsPool(grant)
    requires i < |rest| && rest[i] == AMPERSAND && AMPERSAND !in rest[..i]
    requires Scanned(input, isQuery, finish, canon, empty, grant, d, borrowed, log, rest, done, consumed)
    ensures Scanned(input, isQuery, finish, canon, empty, grant, d', borrowed', log', rest', done', consumed')
    ensures rest' == rest[i + 1..]
  {
    var chunk := rest[..i];
    rest' := rest[i + 1..];
    done' := done + [chunk];
    var ext;
    d', borrowed', ext := StorePiece(chunk, isQuery, finish, canon, empty, grant, d, borrowed);
    log' := log + ext;
    consumed' := consumed + chunk + [AMPERSAND];
    assert Chunks(input) == done' + Chunks(rest') by {
      ChunksStep(rest, i);
      Regroup(done, [chunk], Chunks(rest'));
    }
    assert d' == Dict.Build(DecodeChunks(done', isQuery, finish, empty), canon) by {
      BuildSnoc(done, chunk, isQuery, finish, canon, empty);
    }
    assert Disciplined(None, log', CapacityOf(borrowed')) by {
      DisciplinedAppend(None, log, CapacityOf(borrowed), ext, CapacityOf(borrowed'));
    }
    assert (log', CapacityOf(borrowed')) == PiecesTraffic(done', None, grant) by {
      PiecesTrafficSnoc(done, chunk, None, grant);
    }
    assert borrowed'.Some? <==> AnyPercent(done') by {
      AnyPercentSnoc(done, chunk);
    }
    assert ScanTail(input, rest') by {
      ScanTailStep(input, rest, i);
    }
    InAround(rest, i, PERCENT);
  }

  /** The scanning loop of lines 151-170: store every piece that ends in
      '&' and return what is left after the last '&'. */
  method StoreTerminatedPieces<S(==)>(input: seq<byte>, isQuery: bool, finish: (seq<byte>, bool) -> S, canon: S -> S,
                                      empty: S, grant: nat -> nat)
    returns (d: Dict.Dict<S, S>, borrowed: Option<seq<byte>>, log: seq<PoolEvent>, rest: seq<byte>,
             ghost done: seq<seq<byte>>)
    requires IsPool(grant)
    ensures AMPERSAND !in rest
    ensures Chunks(input) == done + Chunks(rest)
    ensures d == Dict.Build(DecodeChunks(done, isQuery, finish, empty), canon)
    ensures Disciplined(None, log, CapacityOf(borrowed))
    ensures PERCENT in input <==> borrowed.Some? || PERCENT in rest
    ensures borrowed.Some? <==> AnyPercent(done)
    ensures (log, CapacityOf(borrowed)) == PiecesTraffic(done, None, grant)
    ensures rest == [] ==> |input| == 0 || input[|input| - 1] == AMPERSAND
  {
    d := [];
    log := [];
    borrowed := None;
    rest := input;  // the input still to scan
    ghost var consumed: seq<byte> := [];
    done := [];
    assert Chunks(input) == done + Chunks(rest);
    while true
      invariant Scanned(input, isQuery, finish, canon, empty, grant, d, borrowed, log, rest, done, consumed)
      decreases |rest|
    {
      var indexOfAmpersand := IndexOf(rest, AMPERSAND);
      if indexOfAmpersand < 0 {
        break;
      }
      d, borrowed, log, rest, done, consumed :=
        StoreNext(input, isQuery, finish, canon, empty, grant, d, borrowed, log, rest, done, consumed, indexOfAmpersand);
    }
  }

  /** The whole parse, lines 143-199. The dictionary is `ParseSpec`; the
      pool sees the traffic of the pieces in input order followed by one
      return of the buffer still held. That log is balanced (every rent
      returned exactly once, never a return without a rent), empty when the
      input holds no '%', and each rent is larger than the one before. */
  method Parse<S(==)>(input: seq<byte>, isQuery: bool, finish: (seq<byte>, bool) -> S, canon: S -> S, empty: S,
                      grant: nat -> nat)
    returns (d: Dict.Dict<S, S>, log: seq<PoolEvent>)
    requires IsPool(grant)
    ensures d == ParseSpec(input, isQuery, finish, canon, empty)
    ensures Replay(None, log) == Some(None)
    ensures log == [] <==> PERCENT !in input
    ensures StrictlyIncreasing(Rents(log))
    ensures var t := PiecesTraffic(Chunks(input), None, grant);
      log == t.0 + (if t.1.Some? then [Return(t.1.value)] else [])
  {
    var borrowed, rest;
    ghost var done;
    d, borrowed, log, rest, done := StoreTerminatedPieces(input, isQuery, finish, canon, empty, grant);
    // the piece after the last '&', if any
    if |rest| > 0 {
      assert Chunks(rest) == [rest];
      var ext, borrowed';
      d, borrowed', ext := StorePiece(rest, isQuery, finish, canon, empty, grant, d, borrowed);
      DisciplinedAppend(None, log, CapacityOf(borrowed), ext, CapacityOf(borrowed'));
      BuildSnoc(done, rest, isQuery, finish, canon, empty);
      PiecesTrafficSnoc(done, rest, None, grant);
      log, borrowed := log + ext, borrowed';
    } else {
      assert done + [] == done;
    }
    DisciplinedFromNothing(log, CapacityOf(borrowed));
    // give the buffer back, if one was rented
    if borrowed.Some? {
      ghost var before := log;
      log := log + [Return(|borrowed.value|)];
      GiveBack(before, |borrowed.value|);
    }
  }
}

=== FILE: percent.dfy ===
/** Percent-encoding (section 2.1 of RFC 3986): the one-escape decoder the
    parser calls at every '%', the whole-segment meaning of its escape loop,
    and the encoder it inverts. */
module Percent {
  import opened Bytes

  /** "0123456789ABCDEF" and "0123456789abcdef" as bytes. */
  const UPPER_HEX: seq<byte> := [0x30, 0x31, 0x32, 0x33, 0x34, 0x35, 0x36, 0x37, 0x38, 0x39, 0x41, 0x42, 0x43, 0x44, 0x45, 0x46]
  const LOWER_HEX: seq<byte> := [0x30, 0x31, 0x32, 0x33, 0x34, 0x35, 0x36, 0x37, 0x38, 0x39, 0x61, 0x62, 0x63, 0x64, 0x65, 0x66]

  /** HEXDIG of section 2.1 of RFC 3986, case-insensitive: '0'-'9', 'A'-'F', 'a'-'f'. */
  predicate IsHexDigit(c: byte) {
    (0x30 <= c <= 0x39) || (0x41 <= c <= 0x46) || (0x61 <= c <= 0x66)
  }

  /** The two spellings of the digit with value `n`. */
  function DigitsFor(n: int): set<byte>
    requires 0 <= n < 16
  {
    {UPPER_HEX[n], LOWER_HEX[n]}
  }

  /** The C# `(uint)` cast of a 32-bit signed difference: negative values
      wrap to large unsigned ones, so one unsigned comparison is a range test. */
  function ToUInt32(x: int): nat {
    x % 0x1_0000_0000
  }

  /** Value of one hex digit, or -1: the three unsigned range tests on
      '0'..'9', 'a'..'f' and 'A'..'F' that `PercentUnescape` applies to each
      of the two bytes after '%'. */
  function Nibble(c: byte): (r: int)
    ensures -1 <= r < 16
    ensures r >= 0 <==> IsHexDigit(c)
    ensures r >= 0 ==> c in DigitsFor(r)
  {
    var b := c as int;
    UnsignedRangeTest(b - '0' as int, '9' as int - '0' as int);
    UnsignedRangeTest(b - 'a' as int, 'f' as int - 'a' as int);
    UnsignedRangeTest(b - 'A' as int, 'F' as int - 'A' as int);
    if ToUInt32(b - '0' as int) <= ToUInt32('9' as int - '0' as int) then
      DigitAt(b - '0' as int);
      b - '0' as int
    else if ToUInt32(b - 'a' as int) <= ToUInt32('f' as int - 'a' as int) then
      DigitAt(b - 'a' as int + 10);
      b - 'a' as int + 10
    else if ToUInt32(b - 'A' as int) <= ToUInt32('F' as int - 'A' as int) then
      DigitAt(b - 'A' as int + 10);
      b - 'A' as int + 10
    else -1
  }

  /** One unsigned comparison of a wrapped difference is a two-sided range test. */
  lemma UnsignedRangeTest(x: int, width: nat)
    requires -256 <= x < 256 && width < 256
    ensures ToUInt32(x) <= ToUInt32(width) <==> 0 <= x <= width
  {
  }

  /** Digit `n` is '0' + n below ten, 'A' + (n - 10) or 'a' + (n - 10) from ten on. */
  lemma DigitAt(n: int)
    requires 0 <= n < 16
    ensures UPPER_HEX[n] as int == if n < 10 then 0x30 + n else 0x41 + n - 10
    ensures LOWER_HEX[n] as int == if n < 10 then 0x30 + n else 0x61 + n - 10
  {
  }

  /** Decodes the escape at the head of `input`, which starts with '%':
      -1 when fewer than three bytes are present or either following byte is
      not a hex digit, otherwise the byte whose high nibble is the first
      digit and whose low nibble is the second. */
  function PercentUnescape(input: seq<byte>): (r: int)
    requires |input| >= 1 && input[0] == PERCENT
    ensures -1 <= r < 256
    ensures r == -1 <==> |input| < 3 || !IsHexDigit(input[1]) || !IsHexDigit(input[2])
    ensures r >= 0 ==> input[1] in DigitsFor(r / 16) && input[2] in DigitsFor(r % 16)
  {
    if |input| < 3 then -1
    else
      var hi := Nibble(input[1]);
      if hi < 0 then -1
      else
        var lo := Nibble(input[2]);
        if lo < 0 then -1
        else
          NibblesRoundTrip(hi, lo);
          hi * 16 + lo  // `hi << 4` cannot overflow: hi < 16
  }

  lemma NibblesRoundTrip(hi: int, lo: int)
    requires 0 <= hi < 16 && 0 <= lo < 16
    ensures (hi * 16 + lo) / 16 == hi && (hi * 16 + lo) % 16 == lo
  {
  }

  /** What the escape loop computes for a whole segment: literal bytes are
      kept, a valid escape becomes its byte and consumes three bytes, an
      invalid one leaves a literal '%' and consumes one. */
  function Unescape(s: seq<byte>): (r: seq<byte>)
    ensures |r| <= |s|
    decreases |s|
  {
    if |s| == 0 then []
    else if s[0] == PERCENT then
      var v := PercentUnescape(s);
      if v < 0 then [PERCENT] + Unescape(s[1..]) else [v as byte] + Unescape(s[3..])
    else [s[0]] + Unescape(s[1..])
  }

  /** The unreserved bytes of section 2.3 of RFC 3986, never escaped. */
  predicate IsUnreserved(c: byte) {
    || (0x41 <= c <= 0x5A) || (0x61 <= c <= 0x7A) || (0x30 <= c <= 0x39)
    || c == 0x2D || c == 0x2E || c == 0x5F || c == 0x7E
  }

  /** `%HH` for one byte, upper-case digits as section 2.1 of RFC 3986 recommends. */
  function EscapeByte(b: byte): seq<byte> {
    [PERCENT, UPPER_HEX[b / 16], UPPER_HEX[b % 16]]
  }

  /** Percent-encodes every byte that is not unreserved. */
  function Escape(s: seq<byte>): seq<byte> {
    if |s| == 0 then [] else (if IsUnreserved(s[0]) then [s[0]] else EscapeByte(s[0])) + Escape(s[1..])
  }

  /** The decoder inverts the encoder of each byte, in either digit case. */
  lemma UnescapeByteRoundTrip(b: byte)
    ensures PercentUnescape(EscapeByte(b)) == b as int
    ensures PercentUnescape([PERCENT, LOWER_HEX[b / 16], LOWER_HEX[b % 16]]) == b as int
  {
    var hi, lo := (b / 16) as int, (b % 16) as int;
    NibbleOfDigit(hi);
    NibbleOfDigit(lo);
  }

  /** Each digit of either table reads back as its value. */
  lemma NibbleOfDigit(n: int)
    requires 0 <= n < 16
    ensures Nibble(UPPER_HEX[n]) == n && Nibble(LOWER_HEX[n]) == n
  {
    DigitAt(n);
  }

  /** A segment without '%' decodes to itself: the fast path is sound. */
  lemma {:induction false} UnescapeNoPercent(s: seq<byte>)
    requires PERCENT !in s
    ensures Unescape(s) == s
    decreases |s|
  {
    if |s| > 0 {
      assert s == [s[0]] + s[1..];
      UnescapeNoPercent(s[1..]);
    }
  }

  /** The bytes before the first '%' are copied verbatim. */
  lemma {:induction false} UnescapeLiteralRun(s: seq<byte>, n: nat)
    requires n <= |s|
    requires PERCENT !in s[..n]
    ensures Unescape(s) == s[..n] + Unescape(s[n..])
    decreases n
  {
    if n > 0 {
      var t := s[1..];
      assert s[0] == s[..n][0] != PERCENT;
      assert Unescape(s) == [s[0]] + Unescape(t);
      assert t[..n - 1] == s[1..n];
      assert PERCENT !in t[..n - 1] by { assert forall c :: c in s[1..n] ==> c in s[..n]; }
      assert Unescape(t) == t[..n - 1] + Unescape(t[n - 1..]) by { UnescapeLiteralRun(t, n - 1); }
      assert t[n - 1..] == s[n..];
      assert s[..n] == [s[0]] + t[..n - 1];
    }
  }

  /** Decoding a literal byte followed by more input. */
  lemma UnescapeConsLiteral(c: byte, t: seq<byte>)
    requires c != PERCENT
    ensures Unescape([c] + t) == [c] + Unescape(t)
  {
    assert ([c] + t)[1..] == t;
  }

  /** Decoding an escaped byte followed by more input. */
  lemma UnescapeConsEscape(b: byte, t: seq<byte>)
    ensures Unescape(EscapeByte(b) + t) == [b] + Unescape(t)
  {
    var s := EscapeByte(b) + t;
    assert s[..3] == EscapeByte(b);
    UnescapeByteRoundTrip(b);
    assert PercentUnescape(s) == PercentUnescape(EscapeByte(b)) by {
      assert s[1] == EscapeByte(b)[1] && s[2] == EscapeByte(b)[2];
    }
    assert s[3..] == t;
  }

  /** Decoding inverts encoding for every byte string. */
  lemma {:induction false} UnescapeEscape(s: seq<byte>)
    ensures Unescape(Escape(s)) == s
    decreases |s|
  {
    if |s| > 0 {
      UnescapeEscape(s[1..]);
      if IsUnreserved(s[0]) {
        UnescapeConsLiteral(s[0], Escape(s[1..]));
      } else {
        UnescapeConsEscape(s[0], Escape(s[1..]));
      }
    }
  }

  /** The encoder emits neither delimiter of the form grammar, nor '+'. */
  lemma {:induction false} EscapeAvoidsDelimiters(s: seq<byte>)
    ensures AMPERSAND !in Escape(s) && EQUALS !in Escape(s) && PLUS !in Escape(s)
    decreases |s|
  {
    if |s| > 0 {
      var head := if IsUnreserved(s[0]) then [s[0]] else EscapeByte(s[0]);
      assert Escape(s) == head + Escape(s[1..]);
      if !IsUnreserved(s[0]) {
        DigitAt(s[0] as int / 16);
        DigitAt(s[0] as int % 16);
      }
      assert AMPERSAND !in head && EQUALS !in head && PLUS !in head;
      EscapeAvoidsDelimiters(s[1..]);
    }
  }
}

=== FILE: scanner.dfy ===
/** The pair scanner of `Parse`: the input is cut at every '&'; each piece is
    cut again at its first '='. A piece ended by '&' always counts, even
    when empty; the piece after the last '&' counts only when non-empty. */
module Scanner {
  import opened Wrappers
  import opened Bytes

  /** One piece of the input: the key, and the value when the piece holds
      an '='. A piece without '=' gets the empty value without being decoded. */
  datatype RawPair = RawPair(key: seq<byte>, value: Option<seq<byte>>)

  /** The pieces between '&'s, in order. */
  function Chunks(s: seq<byte>): (cs: seq<seq<byte>>)
    ensures forall k :: 0 <= k < |cs| ==> AMPERSAND !in cs[k]
    ensures |cs| == 0 <==> |s| == 0
    decreases |s|
  {
    var i := IndexOf(s, AMPERSAND);
    if i < 0 then (if |s| == 0 then [] else [s])
    else [s[..i]] + Chunks(s[i + 1..])
  }

  /** Splits one piece at its first '='; later '='s stay in the value. */
  function SplitPair(c: seq<byte>): (p: RawPair)
    ensures EQUALS !in p.key
    ensures p.value.None? <==> EQUALS !in c
    ensures p.value.None? ==> p.key == c
    ensures p.value.Some? ==> c == p.key + [EQUALS] + p.value.value
  {
    var j := IndexOf(c, EQUALS);
    if j < 0 then RawPair(c, None)
    else
      assert c == c[..j] + [EQUALS] + c[j + 1..];
      RawPair(c[..j], Some(c[j + 1..]))
  }

  /** The pieces glued back together with `sep` between neighbours. */
  function Join(cs: seq<seq<byte>>, sep: byte): seq<byte>
    decreases |cs|
  {
    if |cs| == 0 then []
    else if |cs| == 1 then cs[0]
    else cs[0] + [sep] + Join(cs[1..], sep)
  }

  /** One step of the scanner: the piece up to the next '&' is the next
      piece, the rest is scanned after the '&'. */
  lemma ChunksStep(rest: seq<byte>, amp: nat)
    requires amp < |rest| && IndexOf(rest, AMPERSAND) == amp
    ensures Chunks(rest) == [rest[..amp]] + Chunks(rest[amp + 1..])
  {
  }

  /** Scanning loses nothing but a trailing '&': gluing the pieces back
      gives the input, minus its last byte when that byte is '&'. */
  lemma {:induction false} ChunksJoin(s: seq<byte>)
    ensures s == Join(Chunks(s), AMPERSAND) + (if |s| > 0 && s[|s| - 1] == AMPERSAND then [AMPERSAND] else [])
    decreases |s|
  {
    var i := IndexOf(s, AMPERSAND);
    if i < 0 {
      if |s| > 0 {
        assert Chunks(s) == [s];
        assert Join([s], AMPERSAND) == s;
      }
    } else {
      var c, t := s[..i], s[i + 1..];
      assert s == c + [AMPERSAND] + t;
      ChunksStep(s, i);
      ChunksJoin(t);
      if |t| == 0 {
        assert Chunks(t) == [];
        assert Join([c], AMPERSAND) == c;
      } else {
        assert s[|s| - 1] == t[|t| - 1];
        JoinCons(c, t, Chunks(t));
      }
    }
  }

  /** Gluing one more piece in front: the inductive step of `ChunksJoin`. */
  lemma JoinCons(c: seq<byte>, t: seq<byte>, ct: seq<seq<byte>>)
    requires |t| > 0 && |ct| > 0
    requires t == Join(ct, AMPERSAND) + (if t[|t| - 1] == AMPERSAND then [AMPERSAND] else [])
    ensures c + [AMPERSAND] + t
      == Join([c] + ct, AMPERSAND) + (if t[|t| - 1] == AMPERSAND then [AMPERSAND] else [])
  {
    var trail := if t[|t| - 1] == AMPERSAND then [AMPERSAND] else [];
    assert ([c] + ct)[1..] == ct;
    calc {
      c + [AMPERSAND] + t;
      c + [AMPERSAND] + (Join(ct, AMPERSAND) + trail);
      (c + [AMPERSAND] + Join(ct, AMPERSAND)) + trail;
      Join([c] + ct, AMPERSAND) + trail;
    }
  }

  /** Scanning inverts gluing, for pieces without '&' whose last one is
      not empty (an empty last piece would be a trailing '&', dropped). */
  lemma {:induction false} ChunksOfJoin(cs: seq<seq<byte>>)
    requires forall k :: 0 <= k < |cs| ==> AMPERSAND !in cs[k]
    requires |cs| == 0 || |cs[|cs| - 1]| > 0
    ensures Chunks(Join(cs, AMPERSAND)) == cs
    decreases |cs|
  {
    if |cs| == 1 {
      assert Join(cs, AMPERSAND) == cs[0];
    } else if |cs| > 1 {
      var rest := Join(cs[1..], AMPERSAND);
      assert Join(cs, AMPERSAND) == cs[0] + [AMPERSAND] + rest;
      assert Chunks(rest) == cs[1..] by { ChunksOfJoin(cs[1..]); }
      ChunksAfter(cs[0], rest);
      assert cs == [cs[0]] + cs[1..];
    }
  }

  /** A piece without '&' followed by '&' is the first piece. */
  lemma ChunksAfter(c: seq<byte>, rest: seq<byte>)
    requires AMPERSAND !in c
    ensures Chunks(c + [AMPERSAND] + rest) == [c] + Chunks(rest)
  {
    var s := c + [AMPERSAND] + rest;
    assert s[..|c|] == c;
    IndexOfAt(s, AMPERSAND, |c|);
    ChunksStep(s, |c|);
    assert s[|c| + 1..] == rest;
  }

  /** Splitting inverts `key '=' value` when the key holds no '='. */
  lemma SplitPairOfJoin(key: seq<byte>, value: seq<byte>)
    requires EQUALS !in key
    ensures SplitPair(key + [EQUALS] + value) == RawPair(key, Some(value))
  {
    var c := key + [EQUALS] + value;
    assert c[..|key|] == key;
    IndexOfAt(c, EQUALS, |key|);
    assert c[|key| + 1..] == value;
  }
}

=== FILE: scratch.dfy ===
/** The scratch buffer one parse call borrows from the shared array pool, and
    the escape loop that decodes a segment into it. The buffer is the C#
    `ref byte[] borrowedArray`: absent until the first '%', then a byte
    sequence whose length is its capacity. The pool is observed only through
    the log of rents and returns the call performs. */
module Scratch {
  import opened Wrappers
  import opened Bytes
  import opened Percent

  /** One interaction with the shared pool; `capacity` is the length of the
      array handed out or given back. */
  datatype PoolEvent = Rent(capacity: nat) | Return(capacity: nat)

  /** True when `grant` describes a pool: asked for `n` bytes it hands back at least `n`. */
  ghost predicate IsPool(grant: nat -> nat) {
    forall n: nat :: grant(n) >= n
  }

  function CapacityOf(borrowed: Option<seq<byte>>): Option<nat> {
    match borrowed
    case None => None
    case Some(b) => Some(|b|)
  }

  /** Replays a log against the capacity of the buffer held before it
      (None: nothing held). A rent while holding a buffer, or a return of a
      buffer that is not the one held, makes the log invalid (None);
      otherwise the result is what is held afterwards. */
  function Replay(held: Option<nat>, log: seq<PoolEvent>): Option<Option<nat>>
    decreases |log|
  {
    if |log| == 0 then Some(held)
    else match log[0]
      case Rent(c) => if held.None? then Replay(Some(c), log[1..]) else None
      case Return(c) => if held == Some(c) then Replay(None, log[1..]) else None
  }

  /** The capacities rented, in order. */
  function Rents(log: seq<PoolEvent>): seq<nat>
    decreases |log|
  {
    if |log| == 0 then []
    else (if log[0].Rent? then [log[0].capacity] else []) + Rents(log[1..])
  }

  /** Each rent is strictly larger than every earlier one: the buffer is
      only ever replaced by a bigger one. */
  predicate StrictlyIncreasing(xs: seq<nat>) {
    forall i, j :: 0 <= i < j < |xs| ==> xs[i] < xs[j]
  }

  /** The pool discipline between two states of the borrowed buffer: the
      log replays from `before` to `after`, every rent is strictly larger
      than the buffer held before it and than every earlier rent, and what
      is held at the end is the last buffer rented (or the one held at the
      start, when nothing was rented). */
  predicate Disciplined(before: Option<nat>, log: seq<PoolEvent>, after: Option<nat>) {
    Replay(before, log) == Some(after) && RentsFit(before, Rents(log), after)
  }

  /** The rent half of `Disciplined`: the capacities rented are strictly
      increasing and above the one held before, and the last of them (or
      the one held before, when there is none) is held after. */
  predicate RentsFit(before: Option<nat>, rents: seq<nat>, after: Option<nat>) {
    && StrictlyIncreasing(rents)
    && (before.Some? ==> forall i :: 0 <= i < |rents| ==> before.value < rents[i])
    && after == (if |rents| == 0 then before else Some(rents[|rents| - 1]))
  }

  /** A fresh array of `n` bytes as the pool hands it out. */
  function Fresh(n: nat): (b: seq<byte>)
    ensures |b| == n
  {
    seq(n, _ => 0)
  }

  /** Running the log of `a` then that of `b` is running `a + b`. */
  lemma {:induction false} ReplayAppend(held: Option<nat>, a: seq<PoolEvent>, b: seq<PoolEvent>)
    ensures Replay(held, a + b) == (match Replay(held, a) case None => None case Some(h) => Replay(h, b))
    decreases |a|
  {
    if |a| == 0 {
      assert a + b == b;
    } else {
      assert (a + b)[0] == a[0];
      assert (a + b)[1..] == a[1..] + b;
      match a[0]
      case Rent(c) =>
        if held.None? { ReplayAppend(Some(c), a[1..], b); }
      case Return(c) =>
        if held == Some(c) { ReplayAppend(None, a[1..], b); }
    }
  }

  lemma {:induction false} RentsAppend(a: seq<PoolEvent>, b: seq<PoolEvent>)
    ensures Rents(a + b) == Rents(a) + Rents(b)
    decreases |a|
  {
    if |a| == 0 {
      assert a + b == b;
    } else {
      assert (a + b)[0] == a[0];
      assert (a + b)[1..] == a[1..] + b;
      RentsAppend(a[1..], b);
      var h := if a[0].Rent? then [a[0].capacity] else [];
      calc {
        Rents(a + b);
        h + Rents(a[1..] + b);
        h + (Rents(a[1..]) + Rents(b));
        (h + Rents(a[1..])) + Rents(b);
      }
    }
  }

  /** Two increasing runs, the second above everything in the first, make
      an increasing run. */
  lemma {:induction false} IncreasingAppend(r1: seq<nat>, r2: seq<nat>, bound: nat)
    requires StrictlyIncreasing(r1) && StrictlyIncreasing(r2)
    requires forall i :: 0 <= i < |r1| ==> r1[i] <= bound
    requires forall j :: 0 <= j < |r2| ==> bound < r2[j]
    ensures StrictlyIncreasing(r1 + r2)
  {
    var r := r1 + r2;
    forall i, j | 0 <= i < j < |r|
      ensures r[i] < r[j]
    {
      if j < |r1| {
        assert r[i] == r1[i] && r[j] == r1[j];
      } else if i < |r1| {
        assert r[i] == r1[i] && r[j] == r2[j - |r1|];
      } else {
        assert r[i] == r2[i - |r1|] && r[j] == r2[j - |r1|];
      }
    }
  }

  /** Two disciplined stretches of log make a disciplined whole. */
  lemma {:induction false} RentsFitAppend(a: Option<nat>, r1: seq<nat>, b: Option<nat>, r2: seq<nat>, c: Option<nat>)
    requires RentsFit(a, r1, b) && RentsFit(b, r2, c)
    ensures RentsFit(a, r1 + r2, c)
  {
    var r := r1 + r2;
    if |r1| > 0 {
      var top := r1[|r1| - 1];
      assert StrictlyIncreasing(r) by {
        assert forall i :: 0 <= i < |r1| ==> r1[i] <= top;
        IncreasingAppend(r1, r2, top);
      }
      if a.Some? {
        forall i | 0 <= i < |r|
          ensures a.value < r[i]
        {
          if i < |r1| { assert r[i] == r1[i]; } else { assert r[i] == r2[i - |r1|]; }
        }
      }
      if |r2| > 0 { assert r[|r| - 1] == r2[|r2| - 1]; }
    } else {
      assert r == r2;
    }
  }

  /** Two disciplined stretches of log make a disciplined whole. */
  lemma DisciplinedAppend(a: Option<nat>, e1: seq<PoolEvent>, b: Option<nat>, e2: seq<PoolEvent>, c: Option<nat>)
    requires Disciplined(a, e1, b) && Disciplined(b, e2, c)
    ensures Disciplined(a, e1 + e2, c)
  {
    ReplayAppend(a, e1, e2);
    RentsAppend(e1, e2);
    RentsFitAppend(a, Rents(e1), b, Rents(e2), c);
  }

  /** Starting from nothing, a disciplined log is empty exactly when
      nothing is held at its end. */
  lemma DisciplinedFromNothing(log: seq<PoolEvent>, after: Option<nat>)
    requires Disciplined(None, log, after)
    ensures log == [] <==> after.None?
  {
  }

  /** `Span.CopyTo`: `src` written into `dst` at offset `off`. */
  function CopyTo(dst: seq<byte>, off: nat, src: seq<byte>): (r: seq<byte>)
    requires off + |src| <= |dst|
    ensures |r| == |dst|
    ensures r[..off + |src|] == dst[..off] + src
  {
    dst[..off] + src + dst[off + |src|..]
  }

  /** The pool traffic of decoding one segment, and the capacity held
      after it, given the capacity held before: nothing for a segment
      without '%'; otherwise a rent of what the pool grants for the segment's
      length when nothing is held, a return followed by such a rent when the
      held buffer is shorter than the segment, and nothing when it is long
      enough. */
  function SegmentTraffic(input: seq<byte>, held: Option<nat>, grant: nat -> nat): (seq<PoolEvent>, Option<nat>) {
    if PERCENT !in input then ([], held)
    else match held
      case None => ([Rent(grant(|input|))], Some(grant(|input|)))
      case Some(c) =>
        if c < |input| then ([Return(c), Rent(grant(|input|))], Some(grant(|input|)))
        else ([], held)
  }

  /** The buffer policy at the head of `MakeStringFrom`: rent when nothing
      is held, return and rent again when the held buffer is shorter than
      the segment, otherwise reuse it. */
  method Acquire(borrowed: Option<seq<byte>>, need: nat, grant: nat -> nat)
    returns (buf: seq<byte>, log: seq<PoolEvent>)
    requires IsPool(grant)
    ensures |buf| >= need
    ensures borrowed.Some? && |borrowed.value| >= need ==> log == [] && buf == borrowed.value
    ensures borrowed.Some? && |borrowed.value| < need ==> log == [Return(|borrowed.value|), Rent(|buf|)] && |buf| == grant(need)
    ensures borrowed.None? ==> log == [Rent(|buf|)] && |buf| == grant(need)
    ensures Disciplined(CapacityOf(borrowed), log, Some(|buf|))
  {
    match borrowed
    case None =>
      buf := Fresh(grant(need));
      log := [Rent(|buf|)];
    case Some(held) =>
      if |held| < need {
        buf := Fresh(grant(need));
        log := [Return(|held|), Rent(|buf|)];
        assert log[1..] == [Rent(|buf|)] && log[1..][1..] == [];
        assert Replay(Some(|held|), log) == Replay(None, [Rent(|buf|)]) == Some(Some(|buf|));
        assert Rents(log) == Rents([Rent(|buf|)]) == [|buf|];
      } else {
        buf := held;
        log := [];
      }
  }

  /** A run without '%' in the middle of a segment decodes to itself. */
  lemma UnescapeRunAt(input: seq<byte>, pos: nat, n: nat)
    requires pos + n <= |input| && PERCENT !in input[pos..pos + n]
    ensures Unescape(input[pos..]) == input[pos..pos + n] + Unescape(input[pos + n..])
  {
    assert input[pos..][..n] == input[pos..pos + n];
    assert input[pos..][n..] == input[pos + n..];
    UnescapeLiteralRun(input[pos..], n);
  }

  /** One '%' in the middle of a segment: decoded, or kept literally. */
  lemma UnescapeStepAt(input: seq<byte>, pos: nat)
    requires pos < |input| && input[pos] == PERCENT
    ensures var v := PercentUnescape(input[pos..]);
      if v < 0 then Unescape(input[pos..]) == [PERCENT] + Unescape(input[pos + 1..])
      else pos + 3 <= |input| && Unescape(input[pos..]) == [v as byte] + Unescape(input[pos + 3..])
  {
    var s := input[pos..];
    assert s[1..] == input[pos + 1..];
    if |s| >= 3 { assert s[3..] == input[pos + 3..]; }
  }

  /** Lines 92-104: the byte one '%' at `p` contributes and where reading
      resumes, three bytes on for a valid escape, one for a literal '%'. */
  function EscapeStep(input: seq<byte>, p: nat): (r: (byte, nat))
    requires p < |input| && input[p] == PERCENT
    ensures p < r.1 <= |input|
    ensures r.1 == p + 1 || r.1 == p + 3
    ensures r.1 == p + 3 <==> PercentUnescape(input[p..]) >= 0
    ensures r.0 == if PercentUnescape(input[p..]) < 0 then PERCENT else PercentUnescape(input[p..]) as byte
    ensures Unescape(input[p..]) == [r.0] + Unescape(input[r.1..])
  {
    UnescapeStepAt(input, p);
    var byteValue := PercentUnescape(input[p..]);
    if byteValue < 0 then (PERCENT, p + 1) else (byteValue as byte, p + 3)
  }

  /** The escape at `p` written into the buffer at `at`: the byte `b` it
      contributes and where reading resumes. */
  method WriteEscape(input: seq<byte>, p: nat, buf: seq<byte>, at: nat) returns (out: seq<byte>, b: byte, next: nat)
    requires p < |input| && input[p] == PERCENT && at < |buf|
    ensures p < next <= |input| && next <= p + 3
    ensures |out| == |buf| && out[..at + 1] == buf[..at] + [b]
    ensures Unescape(input[p..]) == [b] + Unescape(input[next..])
  {
    var step := EscapeStep(input, p);
    b, next := step.0, step.1;
    out := CopyTo(buf, at, [b]);
  }

  /** One turn of the escape loop: the run before the '%' at `pos + idx` is
      copied to the buffer at `off`, then the byte the escape stands for.
      What is written, followed by the decoding from where reading resumes,
      is the decoding from `pos`. */
  method CopyThroughEscape(input: seq<byte>, pos: nat, idx: nat, buf: seq<byte>, off: nat)
    returns (out: seq<byte>, ghost written: seq<byte>, pos': nat, off': nat)
    requires off <= pos && pos + idx < |input| && input[pos + idx] == PERCENT
    requires PERCENT !in input[pos..pos + idx]
    requires |buf| >= |input|
    ensures pos < pos' <= |input| && off' == off + idx + 1 && off' <= pos'
    ensures |out| == |buf|
    ensures out[..off'] == buf[..off] + written
    ensures written + Unescape(input[pos'..]) == Unescape(input[pos..])
  {
    // the literal run before the escape
    var run := input[pos..pos + idx];
    var copied := CopyTo(buf, off, run);
    // the escape itself, decoded or kept as a literal "%"
    var b;
    out, b, pos' := WriteEscape(input, pos + idx, copied, off + idx);
    written := run + [b];
    off' := off + idx + 1;
    assert out[..off'] == buf[..off] + written by {
      Regroup(buf[..off], run, [b]);
    }
    assert written + Unescape(input[pos'..]) == Unescape(input[pos..]) by {
      UnescapeRunAt(input, pos, idx);
      Regroup(run, [b], Unescape(input[pos'..]));
    }
  }

  /** `IndexOf('%')` on the input sliced at `pos`. */
  function NextPercent(input: seq<byte>, pos: nat): (idx: int)
    requires pos <= |input|
    ensures idx < 0 ==> PERCENT !in input[pos..]
    ensures idx >= 0 ==> pos + idx < |input| && input[pos + idx] == PERCENT && PERCENT !in input[pos..pos + idx]
  {
    var i := IndexOf(input[pos..], PERCENT);
    assert i >= 0 ==> input[pos..][..i] == input[pos..pos + i];
    i
  }

  /** The escape loop, lines 79-112 of `MakeStringFrom`: `input` holds a
      '%' at `first` and none before it, `buf` has room for the whole
      segment. Runs before each '%' are copied, each '%' is decoded or
      copied literally, and the leftover tail is copied at the end. */
  method UnescapeInto(input: seq<byte>, first: nat, buf: seq<byte>) returns (out: seq<byte>, len: nat)
    requires first < |input| && input[first] == PERCENT && PERCENT !in input[..first]
    requires |buf| >= |input|
    ensures |out| == |buf|
    ensures len <= |input|
    ensures out[..len] == Unescape(input)
  {
    out := buf;
    var pos := 0;         // read offset: the head of the sliced input
    var off := 0;         // write offset into the buffer
    var idx := first;     // offset of the next '%' after `pos`, or -1
    ghost var done: seq<byte> := [];  // what has been written so far
    while idx >= 0
      invariant off <= pos <= |input|
      invariant |out| == |buf|
      invariant idx >= 0 ==> pos + idx < |input| && input[pos + idx] == PERCENT && PERCENT !in input[pos..pos + idx]
      invariant idx < 0 ==> PERCENT !in input[pos..]
      invariant out[..off] == done
      invariant done + Unescape(input[pos..]) == Unescape(input)
      decreases |input| - pos
    {
      ghost var written;
      out, written, pos, off := CopyThroughEscape(input, pos, idx, out, off);
      Regroup(done, written, Unescape(input[pos..]));
      done := done + written;
      idx := NextPercent(input, pos);
    }
    // the tail after the last escape
    UnescapeNoPercent(input[pos..]);
    out := CopyTo(out, off, input[pos..]);
    len := off + (|input| - pos);
  }

  /** Percent-decodes one segment, lines 66-113 of `MakeStringFrom`. A
      segment without '%' takes the fast path and leaves the buffer and the
      pool alone; otherwise the buffer is made large enough first. */
  method DecodeSegment(input: seq<byte>, borrowed: Option<seq<byte>>, grant: nat -> nat)
    returns (decoded: seq<byte>, borrowed': Option<seq<byte>>, log: seq<PoolEvent>)
    requires IsPool(grant)
    ensures decoded == Unescape(input)
    ensures |decoded| <= |input|
    ensures PERCENT !in input ==> borrowed' == borrowed && log == []
    ensures PERCENT in input ==> borrowed'.Some? && |borrowed'.value| >= |input|
    ensures Disciplined(CapacityOf(borrowed), log, CapacityOf(borrowed'))
    ensures (log, CapacityOf(borrowed')) == SegmentTraffic(input, CapacityOf(borrowed), grant)
  {
    var first := IndexOf(input, PERCENT);
    if first >= 0 {
      var buf;
      buf, log := Acquire(borrowed, |input|, grant);
      var len;
      buf, len := UnescapeInto(input, first, buf);
      decoded := buf[..len];
      borrowed' := Some(buf);
    } else {
      UnescapeNoPercent(input);
      decoded := input;
      borrowed' := borrowed;
      log := [];
    }
  }
}
